=== FILE: README.md ===
# Job tracker sheet synchronisation, modelled in Dafny

The Flask job tracker keeps a Google Sheet, the `Job_Application_Tracker` tab, of job postings. Each data row holds a free-text
"Job Description" and an "Auto-Fill" status cell. The pass `process_unfilled_rows` (flask_app.py:129-203) works as follows:

- It reads the range `A:Z` and maps every header name to its column.
- It looks at each data row in turn. A row is pending when it has a description and its Auto-Fill cell is not "Done".
- For each pending row it asks a generative model to extract the posting's details as JSON. The reply is stripped of
  Markdown code fences and then decoded.
- It writes each of the thirteen output fields that has a header column into that column, using "-" for a field the reply lacks.
- It marks the row "Done" when the header has an "Auto-Fill" column, logs the completion and sleeps four seconds.
- At the end it returns the progress lines joined, with a summary line.

The model is a set of pure functions:

- `Tracker.Run` maps the sheet as read to an `Outcome`. The sheet is a `Result` holding either the rows or the error raised
  while reading them. `extract` is an oracle standing for `extract_job_info`.
- A run either has no data, or finishes with a trace, or aborts with a trace and an error.
- A trace is the ordered sequence of effects the pass issues: single-cell writes (`Write(row, column, value)`), rate-limit
  pauses and progress lines.
- `Tracker.Message` gives the string the web page receives.
- `Replay.ApplyEvents` applies a trace's writes to the sheet, so the sheet that a second run reads can be stated.

Modules follow the program's parts:

- `Text`: Python's `strip`, `replace` and `str(int)`.
- `Extraction`: fence stripping and the decoded value.
- `Sheet`: the header map, column letters and cell addresses.
- `Selector`: the pending test.
- `Sync`: one loop iteration.
- `Orchestrator`: the row loop.
- `Tracker`: the whole pass.
- `RunProperties`: what a run promises.
- `Replay`: the sheet after the writes.
- `Wrappers`: `Option` and `Result`.

## Behaviour of the code worth knowing

- `if not extracted_data` (flask_app.py:172) treats an empty JSON object, and every falsy value such as `[]`, `0`, `""` or
  `null`, as a failed extraction. The row is reported failed and stays pending (`Extraction.IsFalsy`).
- A truthy JSON value that is not an object, such as a list or a string, is not an error in `extract_job_info`. When the header
  has some output column, `extracted_data.get` raises `AttributeError`. The exception escapes the loop, and the whole pass
  returns `" Error: '<type>' object has no attribute 'get'"`, discarding the progress lines. When the header has no output
  column, `.get` is never called, so the row is counted, and marked "Done" when the header has an Auto-Fill column. The model
  keeps both behaviours (`Sync.Crashes`, `Sync.Succeeds`).
- The summary says "All rows are already processed!" whenever no row was counted. This includes a run in which every pending
  row failed extraction (flask_app.py:195-196).
- The pause follows every counted row, the last one included. A run that counts N rows pauses exactly N times.
- Without an "Auto-Fill" header, a processed row is written but never marked. It stays pending for the next run.

## Model

| member | source | states |
|---|---|---|
| Text.Trim | flask_app.py:66-70 | `strip()`, with Python's whitespace characters, leaves no whitespace at either end and never lengthens the text |
| Text.TrimPadded | flask_app.py:66 | stripping whitespace padding around an already-stripped text gives that text back |
| Text.NatToString | flask_app.py:168 | the decimal rendering of a row number is a non-empty digit string without a leading zero that parses back to the number |
| Text.NatToStringInjective | flask_app.py:113 | distinct row numbers render differently |
| Text.RemoveAll | flask_app.py:70 | `replace(p, "")` never lengthens the text, and the result is a subsequence of it: characters are only deleted, never reordered |
| Text.RemoveAllAbsent | flask_app.py:70 | `replace(p, "")` is the identity on a text with no occurrence of `p` |
| Extraction.StripFences | flask_app.py:66-70 | what reaches `json.loads` is stripped; it is the stripped reply itself when that does not open with a fence, and otherwise contains no fence at all |
| Extraction.RemoveFenceLeavesNoFence | flask_app.py:70 | after the left-to-right deletion of every "```" no three consecutive backticks remain, even ones formed across a deleted fence |
| Extraction.FencedReplyDecodesLikeBare | flask_app.py:61-77 | for a body holding no "```" of its own (single backticks, even next to the closing fence, are fine), a reply "```json<body>```" with surrounding whitespace reaches the decoder as the stripped bare body, so both decode alike |
| Extraction.ExtractJobInfo | flask_app.py:61-77 | a failed service call yields `None`; a reply that, once stripped, does not open with a fence reaches the decoder stripped and otherwise unchanged |
| Extraction.IsFalsy | flask_app.py:172 | only a decoded value can pass the test; an empty object fails it like a failed call |
| Sheet.HeaderIndex | flask_app.py:145-146 | every header name is a key, and it maps to the last column carrying that name |
| Sheet.HeaderIndexIsValid | flask_app.py:104-146 | the map of a header read from `A:Z` has indices below 26 and gives distinct names distinct columns |
| Sheet.ColumnLetter | flask_app.py:180 | `chr(65 + idx)` is a letter A..Z from which the index is recovered |
| Sheet.CellRange | flask_app.py:113 | a single-cell address names the tab, then `!`, then the column letter, then a numeral that reads back as the row |
| Sheet.CellRangeInjective | flask_app.py:113 | two single-cell ranges are equal only for the same column and row |
| Selector.IsPending | flask_app.py:161-167 | a pending row holds a non-empty cell in the description column |
| Selector.PendingByHeader | flask_app.py:161-167 | a row is pending iff the cell under the last "Job Description" header, or column 0 without one, is present and non-empty, and the cell under the last "Auto-Fill" header, if any, is not "Done" |
| Selector.NoAutoFillMeansAlwaysPending | flask_app.py:164-167 | without an "Auto-Fill" header, every row with a description is pending |
| Sync.FieldWrites | flask_app.py:177-181 | on an object, at least one write per output field that has a header column, holding the field's value or "-", and nothing else; on a non-object, the first such field raises the `.get` error, and with no such field nothing happens |
| Sync.FieldWritesOnePerColumn | flask_app.py:177-181 | on an object, no two field writes of a row go to the same column, so each output field with a column is written exactly once |
| Sync.RowStep | flask_app.py:159-193 | an iteration counts its row iff the row is pending, its extraction is truthy and it does not raise; it raises iff `.get` fails; a row that is not pending issues nothing |
| Sync.RowStepWrites | flask_app.py:170-186 | only a counted row is written; every write is one of its field writes or its "Done" mark, at sheet row `i + 1`; the mark is its last write |
| Sync.RowStepCrash | flask_app.py:177-179 | an iteration that raises does so on a decoded non-object, and its error is `.get`'s message naming that value's type |
| Sync.RowStepLogs | flask_app.py:168-188 | an iteration's lines name only its own row; it announces the row iff pending, reports failure iff the extraction was falsy, and reports completion iff the row was counted |
| Sync.RowStepPause | flask_app.py:188-193 | a counted row issues exactly one pause, as its last event, after its completion and waiting lines; other rows pause never |
| Sync.RowStepComplete | flask_app.py:177-186 | a counted row gets its "Done" mark when the header has Auto-Fill, and on an object a write for every output field with a column |
| Sync.RenderInjective | flask_app.py:132-198 | distinct progress lines render as distinct texts, so a rendered line tells which row and which kind it is |
| Orchestrator.LoopJustified | flask_app.py:158-186 | every write of rows `i..` belongs to a counted data row at or after `i` and is one the pass issues for it |
| Orchestrator.LoopOrder | flask_app.py:158-186 | writes come row by row, top to bottom |
| Orchestrator.LoopDoneLast | flask_app.py:177-186 | within each row the "Done" mark is the last write |
| Orchestrator.LoopCrash | flask_app.py:158-203 | the loop ends with an error iff some remaining row raises; a failed extraction never ends it |
| Orchestrator.LoopCrashMessage | flask_app.py:158-203 | the error is the `.get` failure of the first remaining row that raises |
| Orchestrator.LoopLogRows | flask_app.py:168-188 | every progress line of rows `i..` names one of those rows, or none |
| Orchestrator.LoopAnnounces | flask_app.py:158-188 | in a loop that runs to the end, a row is announced iff pending, reported failed iff pending with a falsy extraction, and reported completed iff counted |
| Orchestrator.LoopAnnouncesOnlyPending | flask_app.py:167-168 | every announced row is pending, even when the loop ends early |
| Orchestrator.LoopCounts | flask_app.py:189-193 | a loop that runs to the end counts exactly the rows that succeed, and pauses once per counted row |
| Orchestrator.LoopPauses | flask_app.py:188-193 | each pause directly follows a completion and a waiting line, and separates its row's writes from every later row's writes |
| Orchestrator.LoopComplete | flask_app.py:177-186 | a loop that runs to the end leaves every counted row with its "Done" mark and a write for each of its output fields with a column |
| Orchestrator.LoopIdle | flask_app.py:158-167 | with no pending row left, the loop issues nothing and counts nothing |
| Tracker.Run | flask_app.py:129-203 | an empty sheet gives "no data"; a read failure aborts after the start line with that error; otherwise the trace opens with the start line, and a finished run closes with the summary of its count |
| RunProperties.RunWrites | flask_app.py:170-186 | every write lies in a data row below the header and in a column A..Z, belongs to a counted row, and is that row's "Done" mark or one of its extracted fields or "-"; skipped and failed rows are never written |
| RunProperties.RunOrder | flask_app.py:158-186 | writes go row by row, each row's "Done" mark is its last write, and the header row is never announced |
| RunProperties.RunSelection | flask_app.py:158-188 | in a finished run, each data row is announced iff pending, reported failed iff it is pending and its extraction is falsy, and reported completed iff it succeeded |
| RunProperties.RunCompleteRows | flask_app.py:177-186 | in a finished run, every row that succeeded gets its "Done" mark when the header has Auto-Fill, and a write for every output field that has a column |
| RunProperties.RunMarksDone | flask_app.py:184-186 | the "Done" mark of one succeeded row is in the trace of a finished run |
| RunProperties.RunCounts | flask_app.py:188-193 | in a finished run, the count equals the number of succeeded rows, and there is one pause per counted row; each pause follows its row's completion line and separates its writes from later ones |
| RunProperties.RunSummary | flask_app.py:195-200 | in a finished run, the returned text is the joined lines, ending with "All rows are already processed!" iff no row succeeded, and with the count otherwise |
| RunProperties.RunMessageKinds | flask_app.py:140-203 | the returned text starts with `" Error: "` iff the run aborted, and is `" No data found in sheet"` iff the sheet was empty |
| RunProperties.RunAborts | flask_app.py:158-203 | a sheet that was read aborts iff some data row raises; the message is `" Error: "` followed by the `.get` failure of the first such row |
| RunProperties.RunIdle | flask_app.py:142-198 | a sheet with no pending row gets no writes and no pauses, and returns the start line followed by "All rows are already processed!" |
| Replay.SetCell | flask_app.py:110-122 | after a single-cell update the cell reads as the written value |
| Replay.SetCellFrame | flask_app.py:110-122 | a single-cell update leaves every other cell of the row as it was |
| Replay.ApplyKeepsFit | flask_app.py:104 | the written sheet still fits the range `A:Z` |
| Replay.ApplyUntouched | flask_app.py:110-122 | a row that no event writes keeps its contents |
| Replay.ApplyLastWrite | flask_app.py:110-122 | the last write to a row leaves its value in its cell |
| Replay.DoneSticks | flask_app.py:184-186 | a "Done" mark that is its row's last write survives, so the row reads as "Done" afterwards |
| Replay.RerunPending | flask_app.py:158-186 | with an "Auto-Fill" header, after a finished run, a data row is pending iff it was pending and did not succeed; the header row is unchanged |
| Replay.RerunIdle | flask_app.py:158-198 | with an "Auto-Fill" header, after a run that finishes and in which no pending row's extraction is falsy, the next run over the written sheet writes nothing and reports every row already processed |

## Left out

- The generative-model client (flask_app.py:26-29), the prompt and the service call (flask_app.py:34-65) are left out.
  - The reply is a parameter of `Extraction.ExtractJobInfo`.
  - Any exception from the call or from reading `response.text` is the reply `None`.
- `json.loads` is a parameter (`decode`). Its error is `None`.
- The row loop takes `extract` as an oracle for the whole of `extract_job_info`. It is a function, so the model assumes the same
  description always yields the same extraction.
- Decoded field values are strings. A JSON number, list or nested object as a field value is written as-is in the source.
  The model does not distinguish it.
- The `print` of the extraction error (flask_app.py:76) is console output only and is left out.
- Google credentials and the Sheets service (flask_app.py:83-107, 117-122) are left out.
  - A read failure and a client setup failure are the `Failure` branch of `Run`'s input.
  - The read is the table it returns.
- A failing cell update (flask_app.py:117-122) is not modelled. Every write succeeds. In the source, such an exception aborts the pass
  mid-row, with `" Error: ..."`.
- `Replay.SetCell` assumes a single-cell `RAW` update stores the value as given and pads a short row with empty cells. This is what the
  Sheets service does. It is not visible in the source.
- `time.sleep(RATE_LIMIT_DELAY)` is the `Pause` event. Time itself is not modelled.
- `Tracker.Run` requires every row of the snapshot to have at most 26 cells, because the read range is `A:Z` (flask_app.py:104).
- Extraction.ExtractJobInfo: its own contract states the unfenced reply; the fenced reply is stated by `Extraction.StripFences` and
  `Extraction.FencedReplyDecodesLikeBare`, the latter only for a body holding no "```" of its own.
- The Flask routes and the HTML page (flask_app.py:206 onwards) are left out.

=== FILE: extraction.dfy ===
/** The pure part of `extract_job_info` (flask_app.py:32-77): what the
    generative service's reply goes through before it reaches the JSON
    decoder, and what the row loop makes of the decoded value. The service
    call and `json.loads` themselves are parameters of the model. */
module Extraction {
  import opened Wrappers
  import opened Text

  /** The opening or closing delimiter of a Markdown code fence. */
  const Fence: string := "```"
  /** An opening fence tagged with the language `json`. */
  const JsonFence: string := "```json"

  /** What `json.loads` may hand back, as far as the row loop can tell:
      an object whose values are written to cells, or any other JSON value
      (list, string, number, boolean, null), of which the loop only ever
      asks whether it is truthy and what its Python type is called. */
  datatype Decoded =
    | Object(fields: map<string, string>)
    | NonObject(typeName: string, truthy: bool)

  /** `not extracted_data` (flask_app.py:172): `None`, an empty object and
      every falsy non-object value count as a failed extraction; only a
      decoded value can pass. */
  predicate IsFalsy(got: Option<Decoded>)
    ensures !IsFalsy(got) ==> got.Some?
    ensures got == Some(Object(map[])) ==> IsFalsy(got)
  {
    match got
    case None => true
    case Some(Object(m)) => |m| == 0
    case Some(NonObject(_, truthy)) => !truthy
  }

  /** Three backticks start at position `k` of `s`. */
  predicate FenceAt(s: string, k: int) {
    0 <= k && k + 3 <= |s| && s[k] == '`' && s[k + 1] == '`' && s[k + 2] == '`'
  }

  predicate ContainsFence(s: string) {
    exists k :: 0 <= k < |s| && FenceAt(s, k)
  }

  /** The number of backticks `s` begins with. */
  function LeadingTicks(s: string): (n: nat)
    ensures n <= |s|
    ensures forall k :: 0 <= k < n ==> s[k] == '`'
    ensures n < |s| ==> s[n] != '`'
  {
    if |s| > 0 && s[0] == '`' then 1 + LeadingTicks(s[1..]) else 0
  }

  /** The fence handling of flask_app.py:66-70: the reply is stripped; if it
      then starts with a fence, every "```json" and afterwards every "```" is
      deleted and the rest stripped again. Whatever reaches the decoder has
      no whitespace at either end, is the stripped reply itself when that
      did not open with a fence, and otherwise holds no fence at all. */
  function StripFences(reply: string): (r: string)
    ensures IsTrimmed(r)
    ensures !StartsWith(Trim(reply), Fence) ==> r == Trim(reply)
    ensures StartsWith(Trim(reply), Fence) ==> !ContainsFence(r)
  {
    var text := Trim(reply);
    if StartsWith(text, Fence) then
      var unfenced := RemoveAll(RemoveAll(text, JsonFence), Fence);
      RemoveFenceLeavesNoFence(RemoveAll(text, JsonFence));
      NoFenceSurvivesTrim(unfenced);
      Trim(unfenced)
    else text
  }

  /** `extract_job_info` with the service reply and the decoder as
      parameters: a reply of `None` stands for any exception raised while
      calling the service or reading `response.text`, and the decoder's
      `None` for a `json.loads` error; both are caught and yield `None`. */
  function ExtractJobInfo(reply: Option<string>, decode: string -> Option<Decoded>): (r: Option<Decoded>)
    ensures reply.None? ==> r.None?
    ensures reply.Some? && !StartsWith(Trim(reply.value), Fence) ==> r == decode(Trim(reply.value))
  {
    match reply
    case None => None
    case Some(text) => decode(StripFences(text))
  }

  /** A reply of the shape "```json{...}```", with any whitespace around
      it, reaches the decoder exactly as the bare body would, so both
      decode to the same value. The body may hold backticks, even next to
      the closing fence, as long as it holds no "```" of its own. */
  lemma FencedReplyDecodesLikeBare(w1: string, body: string, w2: string, decode: string -> Option<Decoded>)
    requires AllSpace(w1) && AllSpace(w2) && !ContainsFence(body)
    ensures StripFences(w1 + JsonFence + body + Fence + w2) == StripFences(body) == Trim(body)
    ensures ExtractJobInfo(Some(w1 + JsonFence + body + Fence + w2), decode)
            == ExtractJobInfo(Some(body), decode)
  {
    FencedReplyYieldsBody(w1, body, w2);
    BareReplyYieldsBody(body);
  }

  lemma FencedReplyYieldsBody(w1: string, body: string, w2: string)
    requires AllSpace(w1) && AllSpace(w2) && !ContainsFence(body)
    ensures StripFences(w1 + JsonFence + body + Fence + w2) == Trim(body)
  {
    var x := JsonFence + (body + Fence);
    assert w1 + JsonFence + body + Fence + w2 == w1 + x + w2;
    assert IsTrimmed(x) by {
      assert x[0] == '`' && x[|x| - 1] == '`';
    }
    TrimPadded(w1, x, w2);
    assert StartsWith(x, Fence) by {
      assert x[..3] == JsonFence[..3];
    }
    RemoveOpeningJsonFence(body + Fence);
    RemoveJsonFenceAbsent(body);
    RemoveClosingFence(body);
  }

  lemma RemoveOpeningJsonFence(rest: string)
    ensures RemoveAll(JsonFence + rest, JsonFence) == RemoveAll(rest, JsonFence)
  {
    var x := JsonFence + rest;
    assert x[..|JsonFence|] == JsonFence;
    assert x[|JsonFence|..] == rest;
  }

  lemma BareReplyYieldsBody(body: string)
    requires !ContainsFence(body)
    ensures StripFences(body) == Trim(body)
  {
    NoFenceSurvivesTrim(body);
    NoFenceNoOpening(Trim(body));
  }

  lemma NoFenceNoOpening(t: string)
    requires !ContainsFence(t)
    ensures !StartsWith(t, Fence)
  {
    if |t| >= 3 {
      assert !FenceAt(t, 0);
      assert t[..3] == [t[0], t[1], t[2]];
    }
  }

  /** A body without a fence of its own, followed by a closing fence, holds
      no "```json" to delete: one would have to start with three backticks
      of the body. */
  lemma RemoveJsonFenceAbsent(body: string)
    requires !ContainsFence(body)
    ensures RemoveAll(body + Fence, JsonFence) == body + Fence
  {
    var s := body + Fence;
    forall k ensures !OccursAt(s, JsonFence, k) {
      if 0 <= k && k + |JsonFence| <= |s| {
        assert !FenceAt(body, k);
        assert s[k..k + |JsonFence|][..3] != Fence by {
          assert s[k..k + |JsonFence|][..3] == body[k..k + 3];
        }
      }
    }
    RemoveAllAbsent(s, JsonFence);
  }

  /** Deleting "```" from a body without a fence of its own followed by a
      closing fence leaves the body. When the body ends in one or two
      backticks, the scan's first match starts inside the body, and what it
      leaves over is again those backticks. */
  lemma {:induction false} RemoveClosingFence(body: string)
    requires !ContainsFence(body)
    ensures RemoveAll(body + Fence, Fence) == body
    decreases |body|
  {
    var s := body + Fence;
    if |body| == 0 {
      assert s == Fence;
      assert s[|Fence|..] == "";
    } else if s[..|Fence|] == Fence {
      assert s[0] == '`' && s[1] == '`' && s[2] == '`';
      assert |body| < 3 by {
        if |body| >= 3 {
          assert FenceAt(body, 0);
        }
      }
      assert s[3..] == body by {
        forall i | 0 <= i < |body| ensures s[3..][i] == body[i] {
          assert s[3 + i] == '`' && body[i] == s[i];
        }
      }
      RemoveLeadingFence(s);
    } else {
      assert s[1..] == body[1..] + Fence;
      NoFenceInTail(body);
      RemoveClosingFence(body[1..]);
      ScanKeepsFirst(s);
      assert [s[0]] + body[1..] == body;
    }
  }

  lemma NoFenceInTail(s: string)
    requires |s| > 0 && !ContainsFence(s)
    ensures !ContainsFence(s[1..])
  {
    forall k | 0 <= k < |s| - 1 ensures !FenceAt(s[1..], k) {
      assert !FenceAt(s, k + 1);
    }
  }

  /** Python's left-to-right `replace("```", "")` leaves at most two
      backticks at the front (and keeps a run of fewer than three as it is),
      so no fence can survive it, not even one assembled from backticks on
      both sides of a deleted fence. */
  lemma {:induction false} RemoveFenceLeavesNoFence(s: string)
    ensures LeadingTicks(RemoveAll(s, Fence)) <= 2
    ensures LeadingTicks(s) <= 2 ==> LeadingTicks(RemoveAll(s, Fence)) == LeadingTicks(s)
    ensures !ContainsFence(RemoveAll(s, Fence))
    decreases |s|
  {
    if |s| < 3 {
      assert RemoveAll(s, Fence) == s;
    } else if s[..3] == Fence {
      RemoveFenceLeavesNoFence(s[3..]);
      DropLeadingFence(s);
    } else {
      RemoveFenceLeavesNoFence(s[1..]);
      KeepFirstChar(s);
    }
  }

  /** The step of the scan that deletes a fence at the front. */
  lemma DropLeadingFence(s: string)
    requires |s| >= 3 && s[..3] == Fence
    requires LeadingTicks(RemoveAll(s[3..], Fence)) <= 2
    requires !ContainsFence(RemoveAll(s[3..], Fence))
    ensures LeadingTicks(RemoveAll(s, Fence)) <= 2 < LeadingTicks(s)
    ensures !ContainsFence(RemoveAll(s, Fence))
  {
    RemoveLeadingFence(s);
    assert s[0] == '`' && s[1] == '`' && s[2] == '`';
    TickStep(s);
    TickStep(s[1..]);
    TickStep(s[1..][1..]);
    assert s[1..][1..][1..] == s[3..];
  }

  lemma RemoveLeadingFence(s: string)
    requires |s| >= 3 && s[..3] == Fence
    ensures RemoveAll(s, Fence) == RemoveAll(s[3..], Fence)
  {
  }

  lemma TickStep(s: string)
    requires |s| > 0 && s[0] == '`'
    ensures LeadingTicks(s) == 1 + LeadingTicks(s[1..])
  {
  }

  /** The step of the scan that keeps the first character. */
  lemma KeepFirstChar(s: string)
    requires |s| >= 3 && s[..3] != Fence
    requires LeadingTicks(RemoveAll(s[1..], Fence)) <= 2
    requires LeadingTicks(s[1..]) <= 2 ==> LeadingTicks(RemoveAll(s[1..], Fence)) == LeadingTicks(s[1..])
    requires !ContainsFence(RemoveAll(s[1..], Fence))
    ensures LeadingTicks(s) <= 2
    ensures LeadingTicks(RemoveAll(s, Fence)) == LeadingTicks(s)
    ensures !ContainsFence(RemoveAll(s, Fence))
  {
    var rt := RemoveAll(s[1..], Fence);
    ScanKeepsFirst(s);
    if s[0] != '`' {
      PrependSolid(s[0], rt);
    } else {
      ShortLeadingRun(s);
      PrependTick(rt);
    }
  }

  lemma ScanKeepsFirst(s: string)
    requires |s| >= 3 && s[..3] != Fence
    ensures RemoveAll(s, Fence) == [s[0]] + RemoveAll(s[1..], Fence)
  {
  }

  lemma ShortLeadingRun(s: string)
    requires |s| >= 3 && s[..3] != Fence && s[0] == '`'
    ensures LeadingTicks(s[1..]) <= 1
    ensures LeadingTicks(s) == 1 + LeadingTicks(s[1..])
  {
    assert s[..3] == [s[0], s[1], s[2]];
  }

  lemma PrependSolid(c: char, rt: string)
    requires c != '`' && !ContainsFence(rt)
    ensures LeadingTicks([c] + rt) == 0 && !ContainsFence([c] + rt)
  {
    var r := [c] + rt;
    forall k | 1 <= k < |r| ensures FenceAt(r, k) == FenceAt(rt, k - 1) { }
  }

  lemma PrependTick(rt: string)
    requires LeadingTicks(rt) <= 1 && !ContainsFence(rt)
    ensures LeadingTicks(['`'] + rt) == 1 + LeadingTicks(rt)
    ensures !ContainsFence(['`'] + rt)
  {
    var r := ['`'] + rt;
    assert r[1..] == rt;
    forall k | 1 <= k < |r| ensures FenceAt(r, k) == FenceAt(rt, k - 1) { }
    assert !FenceAt(r, 0);
  }

  /** `strip()` keeps a contiguous piece, so it cannot create a fence. */
  lemma {:induction false} NoFenceSurvivesTrim(s: string)
    requires !ContainsFence(s)
    ensures !ContainsFence(Trim(s))
  {
    var a := TrimOffset(s);
    NoFenceInSlice(s, a, a + |Trim(s)|);
  }

  /** Some piece of `s` is what `strip()` keeps. */
  lemma TrimOffset(s: string) returns (a: nat)
    ensures a + |Trim(s)| <= |s| && Trim(s) == s[a..a + |Trim(s)|]
  {
    a := TrimIsSlice(s);
  }

  lemma {:induction false} NoFenceInSlice(s: string, a: nat, b: nat)
    requires a <= b <= |s| && !ContainsFence(s)
    ensures !ContainsFence(s[a..b])
  {
    forall k | 0 <= k < b - a ensures !FenceAt(s[a..b], k) {
      assert !FenceAt(s, a + k);
    }
  }
}

=== FILE: orchestrator.dfy ===
/** The driver of `process_unfilled_rows` (flask_app.py:129-203): the row
    loop over a read-once snapshot, the run summary and the returned
    message. */
module Orchestrator {
  import opened Wrappers
  import opened Extraction
  import opened Sheet
  import opened Selector
  import opened Sync

  /** The loop's state after rows `i..`: what they issued, how many were
      counted, and the error that ended the loop, if one did. */
  datatype Progress = Progress(events: seq<Event>, processed: nat, crash: Option<string>)

  /** A write to a sheet row of `data` whose data row succeeded, and one
      the pass issues for that row. */
  predicate Justified(cols: map<string, nat>, data: Table, extract: string -> Option<Decoded>, e: Event)
    requires ValidColumns(cols)
  {
    && e.Write? && 1 <= e.row <= |data|
    && Succeeds(cols, data[e.row - 1], extract)
    && ExpectedWrite(cols, data[e.row - 1], extract, e.row, e)
  }

  /** Every write in `events` targets a data row at sheet row `lo` or
      below and is justified by it. */
  predicate WritesJustified(cols: map<string, nat>, data: Table, extract: string -> Option<Decoded>,
                            events: seq<Event>, lo: nat)
    requires ValidColumns(cols)
  {
    forall k :: 0 <= k < |events| && events[k].Write? ==>
      lo <= events[k].row && Justified(cols, data, extract, events[k])
  }

  /** `for row_idx in range(i, len(data))`, stopping at the first error
      that escapes an iteration. */
  function Loop(cols: map<string, nat>, data: Table, extract: string -> Option<Decoded>, i: nat): (p: Progress)
    requires ValidColumns(cols) && 1 <= i <= |data|
    ensures i == |data| ==> p == Progress([], 0, None)
    decreases |data| - i
  {
    if i == |data| then Progress([], 0, None)
    else
      var s := RowStep(cols, i, data[i], extract);
      if s.crash.Some? then Progress(s.events, 0, s.crash)
      else
        var rest := Loop(cols, data, extract, i + 1);
        Progress(s.events + rest.events, (if s.succeeded then 1 else 0) + rest.processed, rest.crash)
  }

  /** Every write of rows `i..` is justified by a data row at or after
      `i` that succeeded. */
  lemma {:induction false} LoopJustified(cols: map<string, nat>, data: Table, extract: string -> Option<Decoded>, i: nat)
    requires ValidColumns(cols) && 1 <= i <= |data|
    ensures WritesJustified(cols, data, extract, Loop(cols, data, extract, i).events, i + 1)
    decreases |data| - i
  {
    if i < |data| {
      var events := Loop(cols, data, extract, i).events;
      LoopUnfold(cols, data, extract, i);
      if RowStep(cols, i, data[i], extract).crash.Some? {
        JustifiedStep(cols, data, extract, i, [], events);
      } else {
        LoopJustified(cols, data, extract, i + 1);
        JustifiedStep(cols, data, extract, i, Loop(cols, data, extract, i + 1).events, events);
      }
    }
  }

  lemma JustifiedStep(cols: map<string, nat>, data: Table, extract: string -> Option<Decoded>, i: nat,
                      rest: seq<Event>, events: seq<Event>)
    requires ValidColumns(cols) && 1 <= i < |data|
    requires events == RowStep(cols, i, data[i], extract).events + rest
    requires WritesJustified(cols, data, extract, rest, i + 2)
    ensures WritesJustified(cols, data, extract, events, i + 1)
  {
    var a := RowStep(cols, i, data[i], extract).events;
    RowStepWrites(cols, i, data[i], extract);
    RowWritesJustified(cols, data, extract, i, a);
    ConcatJustified(cols, data, extract, i, a, rest);
  }

  /** The writes one iteration issues for data row `i` are justified by
      it. */
  lemma RowWritesJustified(cols: map<string, nat>, data: Table, extract: string -> Option<Decoded>, i: nat,
                           a: seq<Event>)
    requires ValidColumns(cols) && 1 <= i < |data|
    requires forall k :: 0 <= k < |a| && a[k].Write? ==>
               Succeeds(cols, data[i], extract) && ExpectedWrite(cols, data[i], extract, i + 1, a[k])
    ensures WritesJustified(cols, data, extract, a, i + 1)
  {
  }

  /** The writes of rows `i..` come in row order. */
  lemma {:induction false} LoopOrder(cols: map<string, nat>, data: Table, extract: string -> Option<Decoded>, i: nat)
    requires ValidColumns(cols) && 1 <= i <= |data|
    ensures WritesInRowOrder(Loop(cols, data, extract, i).events)
    decreases |data| - i
  {
    if i < |data| {
      var events := Loop(cols, data, extract, i).events;
      LoopUnfold(cols, data, extract, i);
      if RowStep(cols, i, data[i], extract).crash.Some? {
        OrderStep(cols, i, data[i], extract, [], events);
      } else {
        LoopOrder(cols, data, extract, i + 1);
        LoopWritesBelow(cols, data, extract, i + 1);
        OrderStep(cols, i, data[i], extract, Loop(cols, data, extract, i + 1).events, events);
      }
    }
  }

  lemma OrderStep(cols: map<string, nat>, i: nat, row: Row, extract: string -> Option<Decoded>,
                  rest: seq<Event>, events: seq<Event>)
    requires ValidColumns(cols)
    requires events == RowStep(cols, i, row, extract).events + rest
    requires WritesInRowOrder(rest)
    requires forall k :: 0 <= k < |rest| && rest[k].Write? ==> i + 1 < rest[k].row
    ensures WritesInRowOrder(events)
  {
    RowWritesAt(cols, i, row, extract);
    ConcatOrder(i, RowStep(cols, i, row, extract).events, rest);
  }

  /** Within the writes of rows `i..`, every row's "Done" mark is its last
      write. */
  lemma {:induction false} LoopDoneLast(cols: map<string, nat>, data: Table, extract: string -> Option<Decoded>, i: nat)
    requires ValidColumns(cols) && 1 <= i <= |data|
    ensures DoneWritesLast(cols, Loop(cols, data, extract, i).events)
    decreases |data| - i
  {
    if i < |data| {
      var events := Loop(cols, data, extract, i).events;
      LoopUnfold(cols, data, extract, i);
      if RowStep(cols, i, data[i], extract).crash.Some? {
        DoneLastStep(cols, i, data[i], extract, [], events);
      } else {
        LoopDoneLast(cols, data, extract, i + 1);
        LoopWritesBelow(cols, data, extract, i + 1);
        DoneLastStep(cols, i, data[i], extract, Loop(cols, data, extract, i + 1).events, events);
      }
    }
  }

  lemma DoneLastStep(cols: map<string, nat>, i: nat, row: Row, extract: string -> Option<Decoded>,
                     rest: seq<Event>, events: seq<Event>)
    requires ValidColumns(cols)
    requires events == RowStep(cols, i, row, extract).events + rest
    requires DoneWritesLast(cols, rest)
    requires forall k :: 0 <= k < |rest| && rest[k].Write? ==> i + 1 < rest[k].row
    ensures DoneWritesLast(cols, events)
  {
    var a := RowStep(cols, i, row, extract).events;
    RowStepWrites(cols, i, row, extract);
    RowWritesAt(cols, i, row, extract);
    ConcatDoneLast(cols, a, rest);
  }

  lemma ConcatJustified(cols: map<string, nat>, data: Table, extract: string -> Option<Decoded>, i: nat,
                        a: seq<Event>, b: seq<Event>)
    requires ValidColumns(cols)
    requires WritesJustified(cols, data, extract, a, i + 1)
    requires WritesJustified(cols, data, extract, b, i + 2)
    ensures WritesJustified(cols, data, extract, a + b, i + 1)
  {
    var e := a + b;
    forall k | 0 <= k < |a| ensures e[k] == a[k] { }
    forall k | |a| <= k < |e| ensures e[k] == b[k - |a|] { }
  }

  lemma ConcatOrder(i: nat, a: seq<Event>, b: seq<Event>)
    requires forall k :: 0 <= k < |a| && a[k].Write? ==> a[k].row == i + 1
    requires forall k :: 0 <= k < |b| && b[k].Write? ==> i + 2 <= b[k].row
    requires WritesInRowOrder(b)
    ensures WritesInRowOrder(a + b)
  {
    var e := a + b;
    forall k1, k2 | 0 <= k1 < k2 < |e| && e[k1].Write? && e[k2].Write?
      ensures e[k1].row <= e[k2].row
    {
      if k2 < |a| {
        assert e[k1] == a[k1] && e[k2] == a[k2];
      } else if k1 < |a| {
        assert e[k1] == a[k1] && e[k2] == b[k2 - |a|];
      } else {
        assert e[k1] == b[k1 - |a|] && e[k2] == b[k2 - |a|];
      }
    }
  }

  lemma ConcatDoneLast(cols: map<string, nat>, a: seq<Event>, b: seq<Event>)
    requires ValidColumns(cols)
    requires DoneWritesLast(cols, a) && DoneWritesLast(cols, b)
    requires forall k1, k2 :: 0 <= k1 < |a| && 0 <= k2 < |b| && a[k1].Write? && b[k2].Write? ==> a[k1].row < b[k2].row
    ensures DoneWritesLast(cols, a + b)
  {
    var e := a + b;
    forall k1, k2 | 0 <= k1 < k2 < |e| && e[k1].Write? && e[k2].Write?
      ensures e[k1].row == e[k2].row ==> !IsDoneWrite(cols, e[k1])
    {
      if k2 < |a| {
        assert e[k1] == a[k1] && e[k2] == a[k2];
      } else if k1 < |a| {
        assert e[k1] == a[k1] && e[k2] == b[k2 - |a|];
      } else {
        assert e[k1] == b[k1 - |a|] && e[k2] == b[k2 - |a|];
      }
    }
  }


  /** The loop ends with an error exactly when some remaining row makes
      `.get` raise; a failed extraction never ends it. */
  lemma {:induction false} LoopCrash(cols: map<string, nat>, data: Table, extract: string -> Option<Decoded>, i: nat)
    requires ValidColumns(cols) && 1 <= i <= |data|
    ensures Loop(cols, data, extract, i).crash.Some?
            <==> exists j :: i <= j < |data| && Crashes(cols, data[j], extract)
    decreases |data| - i
  {
    if i < |data| {
      LoopCrash(cols, data, extract, i + 1);
    }
  }

  /** The error that ends the loop is the `.get` failure of the first
      remaining row that crashes. */
  lemma {:induction false} LoopCrashMessage(cols: map<string, nat>, data: Table, extract: string -> Option<Decoded>, i: nat)
    requires ValidColumns(cols) && 1 <= i <= |data|
    ensures var p := Loop(cols, data, extract, i);
            p.crash.Some? ==>
              exists j :: i <= j < |data| && Crashes(cols, data[j], extract)
                && (forall j2 :: i <= j2 < j ==> !Crashes(cols, data[j2], extract))
                && p.crash.value == NoGetMessage(extract(Description(cols, data[j])).value.typeName)
    decreases |data| - i
  {
    var p := Loop(cols, data, extract, i);
    if i < |data| && p.crash.Some? {
      if Crashes(cols, data[i], extract) {
        RowStepCrash(cols, i, data[i], extract);
        assert p.crash == RowStep(cols, i, data[i], extract).crash;
      } else {
        LoopCrashMessage(cols, data, extract, i + 1);
        var j :| i + 1 <= j < |data| && Crashes(cols, data[j], extract)
                 && (forall j2 :: i + 1 <= j2 < j ==> !Crashes(cols, data[j2], extract))
                 && p.crash.value == NoGetMessage(extract(Description(cols, data[j])).value.typeName);
        assert forall j2 :: i <= j2 < j ==> !Crashes(cols, data[j2], extract);
      }
    }
  }

  /** Every progress line of rows `i..` names a row among them, or none. */
  lemma {:induction false} LoopLogRows(cols: map<string, nat>, data: Table, extract: string -> Option<Decoded>, i: nat)
    requires ValidColumns(cols) && 1 <= i <= |data|
    ensures LogRowsWithin(Loop(cols, data, extract, i).events, i + 1, |data|)
    decreases |data| - i
  {
    if i < |data| {
      var s := RowStep(cols, i, data[i], extract);
      RowStepLogs(cols, i, data[i], extract);
      if s.crash.None? {
        LoopLogRows(cols, data, extract, i + 1);
        var rest := Loop(cols, data, extract, i + 1);
        LogRowsConcat(s.events, rest.events, i + 1, |data|);
      }
    }
  }

  /** One row's lines followed by the later rows' lines name rows in the
      combined range. */
  lemma LogRowsConcat(a: seq<Event>, b: seq<Event>, n: nat, hi: nat)
    requires n <= hi && LogRowsWithin(a, n, n) && LogRowsWithin(b, n + 1, hi)
    ensures LogRowsWithin(a + b, n, hi)
  {
    var e := a + b;
    forall k | 0 <= k < |e| && e[k].Log?
      ensures LogRow(e[k].entry) == 0 || n <= LogRow(e[k].entry) <= hi
    {
      if k < |a| {
        assert e[k] == a[k];
      } else {
        assert e[k] == b[k - |a|];
      }
    }
  }

  /** Row-naming lines for rows outside `lo..hi` are absent from
      `events` when every line there names a row in `lo..hi` or none. */
  lemma RowLinesAbsent(events: seq<Event>, lo: nat, hi: nat)
    requires LogRowsWithin(events, lo, hi)
    ensures forall n: nat :: n != 0 && !(lo <= n <= hi) ==> Log(ProcessingRow(n)) !in events
    ensures forall n: nat :: n != 0 && !(lo <= n <= hi) ==> Log(ExtractFailed(n)) !in events
    ensures forall n: nat :: n != 0 && !(lo <= n <= hi) ==> Log(RowCompleted(n)) !in events
  {
    forall n: nat, k | n != 0 && !(lo <= n <= hi) && 0 <= k < |events|
      ensures events[k] != Log(ProcessingRow(n))
      ensures events[k] != Log(ExtractFailed(n))
      ensures events[k] != Log(RowCompleted(n))
    {
      if events[k].Log? {
        assert LogRow(events[k].entry) == 0 || lo <= LogRow(events[k].entry) <= hi;
      }
    }
  }

  /** The line `entry` of data row `j` (sheet row `j + 1`) appears in what
      rows `i..` issue, which is one iteration's events followed by the
      rest of the loop's, iff it appears in that iteration's events when
      `j == i`, or in the rest's when `j > i`. */
  lemma SplitRowLine(cols: map<string, nat>, data: Table, extract: string -> Option<Decoded>, i: nat,
                     a: seq<Event>, b: seq<Event>)
    requires ValidColumns(cols) && 1 <= i < |data|
    requires LogRowsWithin(a, i + 1, i + 1)
    requires LogRowsWithin(b, i + 2, |data|)
    ensures forall n: nat :: n == i + 1 ==>
              && (Log(ProcessingRow(n)) in a + b <==> Log(ProcessingRow(n)) in a)
              && (Log(ExtractFailed(n)) in a + b <==> Log(ExtractFailed(n)) in a)
              && (Log(RowCompleted(n)) in a + b <==> Log(RowCompleted(n)) in a)
    ensures forall n: nat :: n > i + 1 ==>
              && (Log(ProcessingRow(n)) in a + b <==> Log(ProcessingRow(n)) in b)
              && (Log(ExtractFailed(n)) in a + b <==> Log(ExtractFailed(n)) in b)
              && (Log(RowCompleted(n)) in a + b <==> Log(RowCompleted(n)) in b)
  {
    RowLinesAbsent(a, i + 1, i + 1);
    RowLinesAbsent(b, i + 2, |data|);
  }

  /** When the loop runs to the end, a row is announced iff it is pending,
      reported failed iff it is pending with a falsy extraction, and
      reported completed iff it succeeded. */
  lemma {:induction false} LoopAnnounces(cols: map<string, nat>, data: Table, extract: string -> Option<Decoded>, i: nat)
    requires ValidColumns(cols) && 1 <= i <= |data|
    ensures var p := Loop(cols, data, extract, i);
            p.crash.None? ==>
              forall j :: i <= j < |data| ==>
                && (Log(ProcessingRow(j + 1)) in p.events <==> IsPending(cols, data[j]))
                && (Log(ExtractFailed(j + 1)) in p.events <==>
                      IsPending(cols, data[j]) && IsFalsy(extract(Description(cols, data[j]))))
                && (Log(RowCompleted(j + 1)) in p.events <==> Succeeds(cols, data[j], extract))
    decreases |data| - i
  {
    var p := Loop(cols, data, extract, i);
    if i < |data| && p.crash.None? {
      var s := RowStep(cols, i, data[i], extract);
      var rest := Loop(cols, data, extract, i + 1);
      RowStepLogs(cols, i, data[i], extract);
      LoopAnnounces(cols, data, extract, i + 1);
      LoopLogRows(cols, data, extract, i + 1);
      assert p.events == s.events + rest.events;
      SplitRowLine(cols, data, extract, i, s.events, rest.events);
    }
  }

  /** An announced row is pending, even when the loop ends early. */
  lemma {:induction false} LoopAnnouncesOnlyPending(cols: map<string, nat>, data: Table, extract: string -> Option<Decoded>, i: nat)
    requires ValidColumns(cols) && 1 <= i <= |data|
    ensures var p := Loop(cols, data, extract, i);
            forall j :: i <= j < |data| && Log(ProcessingRow(j + 1)) in p.events ==> IsPending(cols, data[j])
    decreases |data| - i
  {
    var p := Loop(cols, data, extract, i);
    if i < |data| {
      var s := RowStep(cols, i, data[i], extract);
      RowStepLogs(cols, i, data[i], extract);
      if s.crash.Some? {
        assert p.events == s.events;
        RowLinesAbsent(s.events, i + 1, i + 1);
      } else {
        var rest := Loop(cols, data, extract, i + 1);
        LoopAnnouncesOnlyPending(cols, data, extract, i + 1);
        LoopLogRows(cols, data, extract, i + 1);
        assert p.events == s.events + rest.events;
        SplitRowLine(cols, data, extract, i, s.events, rest.events);
      }
    }
  }

  /** The rows among `i..` that succeed. */
  function SucceededRows(cols: map<string, nat>, data: Table, extract: string -> Option<Decoded>, i: nat): set<nat> {
    set j: nat | i <= j < |data| && Succeeds(cols, data[j], extract)
  }

  /** When the loop runs to the end, it counts exactly the rows that
      succeed, and issues exactly one pause per counted row. */
  lemma {:induction false} LoopCounts(cols: map<string, nat>, data: Table, extract: string -> Option<Decoded>, i: nat)
    requires ValidColumns(cols) && 1 <= i <= |data|
    ensures var p := Loop(cols, data, extract, i);
            p.crash.None? ==>
              && p.processed == |SucceededRows(cols, data, extract, i)|
              && PauseCount(p.events) == p.processed
    decreases |data| - i
  {
    var p := Loop(cols, data, extract, i);
    if i == |data| {
      assert SucceededRows(cols, data, extract, i) == {};
    } else if p.crash.None? {
      var s := RowStep(cols, i, data[i], extract);
      var rest := Loop(cols, data, extract, i + 1);
      assert p.events == s.events + rest.events;
      assert p.processed == (if s.succeeded then 1 else 0) + rest.processed;
      LoopCounts(cols, data, extract, i + 1);
      assert rest.processed == |SucceededRows(cols, data, extract, i + 1)|;
      assert PauseCount(rest.events) == rest.processed;
      RowStepPause(cols, i, data[i], extract);
      assert PauseCount(s.events) == (if s.succeeded then 1 else 0);
      PauseCountConcat(s.events, rest.events);
      SucceededRowsSplit(cols, data, extract, i);
    }
  }

  /** Splitting off row `i` from the rows that succeed among `i..`. */
  lemma SucceededRowsSplit(cols: map<string, nat>, data: Table, extract: string -> Option<Decoded>, i: nat)
    requires i < |data|
    ensures |SucceededRows(cols, data, extract, i)|
            == (if Succeeds(cols, data[i], extract) then 1 else 0) + |SucceededRows(cols, data, extract, i + 1)|
  {
    var all := SucceededRows(cols, data, extract, i);
    var later := SucceededRows(cols, data, extract, i + 1);
    var head := if Succeeds(cols, data[i], extract) then {i} else {};
    forall j | j in all ensures j in head + later {}
    forall j | j in head + later ensures j in all {}
    assert all == head + later;
    assert i !in later;
  }

  /** Each pause directly follows the completion and waiting lines of a
      row, and separates that row's writes (all before it) from every
      later row's writes (all after it). */
  predicate PausesSeparateRows(events: seq<Event>) {
    forall k :: 0 <= k < |events| && events[k].Pause? ==>
      && k >= 2
      && events[k - 1] == Log(Waiting(RateLimitDelay))
      && events[k - 2].Log? && events[k - 2].entry.RowCompleted?
      && (forall k2 :: 0 <= k2 < |events| && events[k2].Write? ==>
            (k2 < k <==> events[k2].row <= events[k - 2].entry.row))
  }

  /** Every pause of `events` follows the completion line of a sheet row
      at or below `lo`. */
  predicate PausesFollowRows(events: seq<Event>, lo: nat) {
    forall k :: 0 <= k < |events| && events[k].Pause? ==>
      k >= 2 && events[k - 2].Log? && events[k - 2].entry.RowCompleted? && lo <= events[k - 2].entry.row
  }

  lemma {:induction false} LoopPauses(cols: map<string, nat>, data: Table, extract: string -> Option<Decoded>, i: nat)
    requires ValidColumns(cols) && 1 <= i <= |data|
    ensures PausesSeparateRows(Loop(cols, data, extract, i).events)
    ensures PausesFollowRows(Loop(cols, data, extract, i).events, i + 1)
    decreases |data| - i
  {
    if i < |data| {
      var events := Loop(cols, data, extract, i).events;
      var s := RowStep(cols, i, data[i], extract);
      LoopUnfold(cols, data, extract, i);
      if s.crash.Some? {
        RowPauses(cols, i, data[i], extract, [], events);
      } else {
        LoopPauses(cols, data, extract, i + 1);
        LoopWritesBelow(cols, data, extract, i + 1);
        RowPauses(cols, i, data[i], extract, Loop(cols, data, extract, i + 1).events, events);
      }
    }
  }

  /** One iteration's events followed by events whose pauses separate
      rows after it. */
  lemma RowPauses(cols: map<string, nat>, i: nat, row: Row, extract: string -> Option<Decoded>,
                  rest: seq<Event>, events: seq<Event>)
    requires ValidColumns(cols)
    requires events == RowStep(cols, i, row, extract).events + rest
    requires forall k :: 0 <= k < |rest| && rest[k].Write? ==> i + 1 < rest[k].row
    requires PausesSeparateRows(rest) && PausesFollowRows(rest, i + 2)
    ensures PausesSeparateRows(events) && PausesFollowRows(events, i + 1)
  {
    RowStepPause(cols, i, row, extract);
    RowWritesAt(cols, i, row, extract);
    PausesSeparateConcat(RowStep(cols, i, row, extract).events, rest, i + 1);
  }

  /** The events of rows `i..` are row `i`'s events followed, unless row
      `i` raised, by the events of the rows after it. */
  lemma LoopUnfold(cols: map<string, nat>, data: Table, extract: string -> Option<Decoded>, i: nat)
    requires ValidColumns(cols) && 1 <= i < |data|
    ensures RowStep(cols, i, data[i], extract).crash.Some? ==>
              Loop(cols, data, extract, i).events == RowStep(cols, i, data[i], extract).events + []
    ensures RowStep(cols, i, data[i], extract).crash.None? ==>
              Loop(cols, data, extract, i).events
                == RowStep(cols, i, data[i], extract).events + Loop(cols, data, extract, i + 1).events
  {
    var s := RowStep(cols, i, data[i], extract);
    if s.crash.Some? {
      assert s.events + [] == s.events;
    }
  }

  /** Every write of one iteration addresses that iteration's sheet row. */
  lemma RowWritesAt(cols: map<string, nat>, i: nat, row: Row, extract: string -> Option<Decoded>)
    requires ValidColumns(cols)
    ensures var events := RowStep(cols, i, row, extract).events;
            forall k :: 0 <= k < |events| && events[k].Write? ==> events[k].row == i + 1
  {
    RowStepWrites(cols, i, row, extract);
  }

  /** Every write of the rows from `i` on addresses a sheet row below `i`. */
  lemma LoopWritesBelow(cols: map<string, nat>, data: Table, extract: string -> Option<Decoded>, i: nat)
    requires ValidColumns(cols) && 1 <= i <= |data|
    ensures var events := Loop(cols, data, extract, i).events;
            forall k :: 0 <= k < |events| && events[k].Write? ==> i < events[k].row
  {
    LoopJustified(cols, data, extract, i);
  }

  /** One row's events followed by the later rows' events keep each pause
      between the writes of its row and those of later rows. */
  lemma PausesSeparateConcat(a: seq<Event>, b: seq<Event>, n: nat)
    requires ClosedByPause(a, n)
    requires forall k :: 0 <= k < |a| && a[k].Write? ==> a[k].row == n
    requires forall k :: 0 <= k < |b| && b[k].Write? ==> n < b[k].row
    requires PausesSeparateRows(b) && PausesFollowRows(b, n + 1)
    ensures PausesSeparateRows(a + b) && PausesFollowRows(a + b, n)
  {
    var e := a + b;
    forall k | 0 <= k < |e| && e[k].Pause?
      ensures k >= 2 && e[k - 1] == Log(Waiting(RateLimitDelay))
      ensures e[k - 2].Log? && e[k - 2].entry.RowCompleted? && n <= e[k - 2].entry.row
      ensures forall k2 :: 0 <= k2 < |e| && e[k2].Write? ==> (k2 < k <==> e[k2].row <= e[k - 2].entry.row)
    {
      if k < |a| {
        assert a[k].Pause?;
        PauseInFirst(a, b, n, k);
      } else {
        assert b[k - |a|].Pause?;
        PauseInSecond(a, b, n, k - |a|);
      }
    }
  }

  /** The pause closing the first row's events. */
  lemma PauseInFirst(a: seq<Event>, b: seq<Event>, n: nat, k: nat)
    requires forall k :: 0 <= k < |a| && a[k].Write? ==> a[k].row == n
    requires forall k :: 0 <= k < |b| && b[k].Write? ==> n < b[k].row
    requires 2 <= k == |a| - 1 && a[k].Pause?
    requires a[k - 1] == Log(Waiting(RateLimitDelay)) && a[k - 2] == Log(RowCompleted(n))
    ensures var e := a + b;
            && e[k - 1] == Log(Waiting(RateLimitDelay)) && e[k - 2] == Log(RowCompleted(n))
            && forall k2 :: 0 <= k2 < |e| && e[k2].Write? ==> (k2 < k <==> e[k2].row <= n)
  {
    var e := a + b;
    forall k2 | 0 <= k2 < |e| && e[k2].Write?
      ensures k2 < k <==> e[k2].row <= n
    {
      if k2 < |a| {
        assert e[k2] == a[k2];
      } else {
        assert e[k2] == b[k2 - |a|];
      }
    }
  }

  /** A pause of the later rows' events. */
  lemma PauseInSecond(a: seq<Event>, b: seq<Event>, n: nat, kb: nat)
    requires forall k :: 0 <= k < |a| && a[k].Write? ==> a[k].row == n
    requires PausesSeparateRows(b)
    requires kb < |b| && b[kb].Pause?
    requires n < b[kb - 2].entry.row
    ensures var e := a + b;
            var k := |a| + kb;
            && k >= 2 && e[k - 1] == b[kb - 1] && e[k - 2] == b[kb - 2]
            && forall k2 :: 0 <= k2 < |e| && e[k2].Write? ==> (k2 < k <==> e[k2].row <= b[kb - 2].entry.row)
  {
    var e := a + b;
    var k := |a| + kb;
    var m := b[kb - 2].entry.row;
    forall k2 | 0 <= k2 < |e| && e[k2].Write?
      ensures k2 < k <==> e[k2].row <= m
    {
      if k2 < |a| {
        assert e[k2] == a[k2];
      } else {
        assert e[k2] == b[k2 - |a|];
      }
    }
  }

  /** Every row from `lo` on that succeeded has its "Done" mark (when the
      header has an Auto-Fill column) and, for a decoded object, one write
      per output field with a header column, among `events`. */
  predicate RowsComplete(cols: map<string, nat>, data: Table, extract: string -> Option<Decoded>,
                         events: seq<Event>, lo: nat)
    requires ValidColumns(cols)
  {
    forall j :: lo <= j < |data| && Succeeds(cols, data[j], extract) ==>
      && (AutoFillHeader in cols ==>
            Write(j + 1, ColumnLetter(cols[AutoFillHeader]), DoneMarker) in events)
      && (extract(Description(cols, data[j])).value.Object? ==>
            forall f :: 0 <= f < |OutputColumns| && OutputColumns[f] in cols ==>
              Write(j + 1, ColumnLetter(cols[OutputColumns[f]]),
                    FieldValue(extract(Description(cols, data[j])).value.fields, OutputColumns[f]))
                in events)
  }

  lemma {:induction false} LoopComplete(cols: map<string, nat>, data: Table, extract: string -> Option<Decoded>, i: nat)
    requires ValidColumns(cols) && 1 <= i <= |data|
    ensures var p := Loop(cols, data, extract, i);
            p.crash.None? ==> RowsComplete(cols, data, extract, p.events, i)
    decreases |data| - i
  {
    var p := Loop(cols, data, extract, i);
    if i < |data| && p.crash.None? {
      LoopUnfold(cols, data, extract, i);
      LoopComplete(cols, data, extract, i + 1);
      RowComplete(cols, data, extract, i, Loop(cols, data, extract, i + 1).events, p.events);
    }
  }

  /** The step of `LoopComplete`: row `i`'s events put in front of events
      that complete the rows after it. */
  lemma RowComplete(cols: map<string, nat>, data: Table, extract: string -> Option<Decoded>, i: nat,
                    rest: seq<Event>, events: seq<Event>)
    requires ValidColumns(cols) && 1 <= i < |data|
    requires events == RowStep(cols, i, data[i], extract).events + rest
    requires RowsComplete(cols, data, extract, rest, i + 1)
    ensures RowsComplete(cols, data, extract, events, i)
  {
    assert forall e :: e in rest ==> e in events;
    if Succeeds(cols, data[i], extract) {
      RowStepComplete(cols, i, data[i], extract);
      assert forall e :: e in RowStep(cols, i, data[i], extract).events ==> e in events;
    }
  }


  /** With no pending row among `i..` the loop issues nothing, counts
      nothing and ends normally. */
  lemma {:induction false} LoopIdle(cols: map<string, nat>, data: Table, extract: string -> Option<Decoded>, i: nat)
    requires ValidColumns(cols) && 1 <= i <= |data|
    requires forall j :: i <= j < |data| ==> !IsPending(cols, data[j])
    ensures Loop(cols, data, extract, i) == Progress([], 0, None)
    decreases |data| - i
  {
    if i < |data| {
      LoopIdle(cols, data, extract, i + 1);
      assert !IsPending(cols, data[i]);
    }
  }
}

=== FILE: properties.dfy ===
/** What one run of the pass promises, stated over the outcome of `Run`
    on a sheet that was read (flask_app.py:129-203). */
module RunProperties {
  import opened Wrappers
  import opened Text
  import opened Extraction
  import opened Sheet
  import opened Selector
  import opened Sync
  import opened Orchestrator
  import opened Tracker

  /** The start line and the summary around the loop's events add no
      writes and no pauses: every other event of the trace is the loop's. */
  lemma Framed(events: seq<Event>, tail: seq<Event>, t: seq<Event>)
    requires t == [Log(Starting)] + events + tail
    requires forall k :: 0 <= k < |tail| ==> tail[k].Log?
    ensures forall k :: 0 <= k < |events| ==> t[k + 1] == events[k]
    ensures forall k :: 0 <= k < |t| && !t[k].Log? ==> 1 <= k <= |events|
  {
    forall k | 1 + |events| <= k < |t|
      ensures t[k].Log?
    {
      assert t[k] == tail[k - 1 - |events|];
    }
  }

  /** The loop's events of a run that got past the header. */
  lemma LoopOfRun(data: Table, extract: string -> Option<Decoded>)
    requires FitsReadRange(data) && |data| > 0
    ensures Run(Success(data), extract).Finished? <==> Loop(Columns(data), data, extract, 1).crash.None?
    ensures var o := Run(Success(data), extract);
            var p := Loop(Columns(data), data, extract, 1);
            o.Finished? ==> o.trace == [Log(Starting)] + p.events + [Log(Summary(p.processed))]
    ensures var o := Run(Success(data), extract);
            var p := Loop(Columns(data), data, extract, 1);
            o.Finished? ==> o.processed == p.processed
    ensures var o := Run(Success(data), extract);
            var p := Loop(Columns(data), data, extract, 1);
            o.Aborted? ==> o.trace == [Log(Starting)] + p.events && o.error == p.crash.value
  {
  }

  /** Every write of `t` lies in a data row below the header and in a
      column A..Z, belongs to a row that succeeded, and is one the pass
      issues for that row. */
  predicate WritesSound(cols: map<string, nat>, data: Table, extract: string -> Option<Decoded>, t: seq<Event>)
    requires ValidColumns(cols)
  {
    forall k :: 0 <= k < |t| && t[k].Write? ==>
      && 2 <= t[k].row <= |data|
      && 'A' <= t[k].column <= 'Z'
      && Succeeds(cols, data[t[k].row - 1], extract)
      && ExpectedWrite(cols, data[t[k].row - 1], extract, t[k].row, t[k])
  }

  /** Every cell the pass writes lies in a data row below the header and
      in a column A..Z, belongs to a row that succeeded, and is either that
      row's "Done" mark or one of its output fields with the extracted
      value (or "-"). Rows that are skipped or whose extraction failed are
      never written. This holds for an aborted run too. */
  lemma RunWrites(data: Table, extract: string -> Option<Decoded>)
    requires FitsReadRange(data) && |data| > 0
    ensures !Run(Success(data), extract).NoData?
    ensures WritesSound(Columns(data), data, extract, Run(Success(data), extract).trace)
  {
    var o := Run(Success(data), extract);
    var cols := Columns(data);
    var p := Loop(cols, data, extract, 1);
    LoopOfRun(data, extract);
    LoopJustified(cols, data, extract, 1);
    if o.Finished? {
      FramedWrites(cols, data, extract, p.events, [Log(Summary(p.processed))], o.trace);
    } else {
      assert o.trace == [Log(Starting)] + p.events + [];
      FramedWrites(cols, data, extract, p.events, [], o.trace);
    }
  }

  /** Framing keeps every write justified, and justified writes address
      columns A..Z. */
  lemma FramedWrites(cols: map<string, nat>, data: Table, extract: string -> Option<Decoded>,
                     events: seq<Event>, tail: seq<Event>, t: seq<Event>)
    requires ValidColumns(cols)
    requires t == [Log(Starting)] + events + tail
    requires forall k :: 0 <= k < |tail| ==> tail[k].Log?
    requires WritesJustified(cols, data, extract, events, 2)
    ensures WritesSound(cols, data, extract, t)
  {
    Framed(events, tail, t);
    forall k | 0 <= k < |t| && t[k].Write?
      ensures 2 <= t[k].row <= |data|
      ensures 'A' <= t[k].column <= 'Z'
      ensures Succeeds(cols, data[t[k].row - 1], extract)
      ensures ExpectedWrite(cols, data[t[k].row - 1], extract, t[k].row, t[k])
    {
      var e := t[k];
      assert e == events[k - 1];
      if IsDoneWrite(cols, e) {
        assert e.column == ColumnLetter(cols[AutoFillHeader]);
      } else {
        var got := extract(Description(cols, data[e.row - 1]));
        assert IsFieldWrite(cols, e.row, got.value.fields, e);
        var j :| 0 <= j < |OutputColumns| && OutputColumns[j] in cols
                 && e.column == ColumnLetter(cols[OutputColumns[j]]);
      }
    }
  }

  /** Framing keeps the write order and the place of the "Done" marks,
      and adds no announcement of a row. */
  lemma FramedOrder(cols: map<string, nat>, events: seq<Event>, tail: seq<Event>, t: seq<Event>)
    requires ValidColumns(cols)
    requires t == [Log(Starting)] + events + tail
    requires forall k :: 0 <= k < |tail| ==> tail[k].Log? && !tail[k].entry.ProcessingRow?
    requires WritesInRowOrder(events) && DoneWritesLast(cols, events)
    requires Log(ProcessingRow(1)) !in events
    ensures WritesInRowOrder(t) && DoneWritesLast(cols, t)
    ensures Log(ProcessingRow(1)) !in t
  {
    Framed(events, tail, t);
    forall k1, k2 | 0 <= k1 < k2 < |t| && t[k1].Write? && t[k2].Write?
      ensures t[k1].row <= t[k2].row
      ensures t[k1].row == t[k2].row ==> !IsDoneWrite(cols, t[k1])
    {
      assert t[k1] == events[k1 - 1] && t[k2] == events[k2 - 1];
    }
    forall k | 0 <= k < |t|
      ensures t[k] != Log(ProcessingRow(1))
    {
      if 1 <= k <= |events| {
        assert t[k] == events[k - 1];
      } else if k > |events| {
        assert t[k] == tail[k - 1 - |events|];
      }
    }
  }

  /** Writes are issued row by row, top to bottom; within a row the
      "Done" mark is the last write. The header row is never announced. */
  lemma RunOrder(data: Table, extract: string -> Option<Decoded>)
    requires FitsReadRange(data) && |data| > 0
    ensures !Run(Success(data), extract).NoData?
    ensures WritesInRowOrder(Run(Success(data), extract).trace)
    ensures DoneWritesLast(Columns(data), Run(Success(data), extract).trace)
    ensures Log(ProcessingRow(1)) !in Run(Success(data), extract).trace
  {
    var o := Run(Success(data), extract);
    var cols := Columns(data);
    var p := Loop(cols, data, extract, 1);
    LoopOfRun(data, extract);
    LoopOrder(cols, data, extract, 1);
    LoopDoneLast(cols, data, extract, 1);
    LoopLogRows(cols, data, extract, 1);
    RowLinesAbsent(p.events, 2, |data|);
    if o.Finished? {
      FramedOrder(cols, p.events, [Log(Summary(p.processed))], o.trace);
    } else {
      assert o.trace == [Log(Starting)] + p.events + [];
      FramedOrder(cols, p.events, [], o.trace);
    }
  }

  /** In a run that finishes, a data row is announced exactly when it is
      pending, reported failed exactly when it is pending and its
      extraction is falsy, and reported completed exactly when it
      succeeded; a failed row does not stop later rows from being handled. */
  lemma RunSelection(data: Table, extract: string -> Option<Decoded>)
    requires FitsReadRange(data) && |data| > 0
    ensures var o := Run(Success(data), extract);
            var cols := Columns(data);
            o.Finished? ==>
              forall j :: 1 <= j < |data| ==>
                && (Log(ProcessingRow(j + 1)) in o.trace <==> IsPending(cols, data[j]))
                && (Log(ExtractFailed(j + 1)) in o.trace <==>
                      IsPending(cols, data[j]) && IsFalsy(extract(Description(cols, data[j]))))
                && (Log(RowCompleted(j + 1)) in o.trace <==> Succeeds(cols, data[j], extract))
  {
    var o := Run(Success(data), extract);
    var cols := Columns(data);
    var p := Loop(cols, data, extract, 1);
    LoopOfRun(data, extract);
    if o.Finished? {
      LoopAnnounces(cols, data, extract, 1);
      var t := [Log(Starting)] + p.events + [Log(Summary(p.processed))];
      assert o.trace == t;
      forall e: Event | e.Log? && LogRow(e.entry) != 0
        ensures e in t <==> e in p.events
      {
      }
    }
  }

  /** In a run that finishes, every row that succeeded gets its "Done"
      mark when the header has an Auto-Fill column, and, for a decoded
      object, one write per output field that has a header column, holding
      the extracted value or "-". */
  lemma RunCompleteRows(data: Table, extract: string -> Option<Decoded>)
    requires FitsReadRange(data) && |data| > 0
    ensures var o := Run(Success(data), extract);
            var cols := Columns(data);
            o.Finished? ==>
              forall j :: 1 <= j < |data| && Succeeds(cols, data[j], extract) ==>
                && (AutoFillHeader in cols ==>
                      Write(j + 1, ColumnLetter(cols[AutoFillHeader]), DoneMarker) in o.trace)
                && (extract(Description(cols, data[j])).value.Object? ==>
                      forall f :: 0 <= f < |OutputColumns| && OutputColumns[f] in cols ==>
                        Write(j + 1, ColumnLetter(cols[OutputColumns[f]]),
                              FieldValue(extract(Description(cols, data[j])).value.fields, OutputColumns[f]))
                          in o.trace)
  {
    var o := Run(Success(data), extract);
    var cols := Columns(data);
    var p := Loop(cols, data, extract, 1);
    LoopOfRun(data, extract);
    if o.Finished? {
      LoopComplete(cols, data, extract, 1);
      assert forall e :: e in p.events ==> e in o.trace;
    }
  }

  /** The "Done" mark of one row that succeeded in a finished run. */
  lemma RunMarksDone(data: Table, extract: string -> Option<Decoded>, j: nat)
    requires FitsReadRange(data) && 1 <= j < |data|
    requires AutoFillHeader in Columns(data)
    requires Run(Success(data), extract).Finished?
    requires Succeeds(Columns(data), data[j], extract)
    ensures Write(j + 1, ColumnLetter(Columns(data)[AutoFillHeader]), DoneMarker) in Run(Success(data), extract).trace
  {
    RunCompleteRows(data, extract);
  }

  /** In a run that finishes, the count of processed jobs is the number of
      rows that succeeded, there is one pause per such row, and each pause
      follows its row's completion line and separates that row's writes
      from all later ones. */
  lemma RunCounts(data: Table, extract: string -> Option<Decoded>)
    requires FitsReadRange(data) && |data| > 0
    ensures var o := Run(Success(data), extract);
            o.Finished? ==>
              && o.processed == |SucceededRows(Columns(data), data, extract, 1)|
              && PauseCount(o.trace) == o.processed
              && PausesSeparateRows(o.trace)
  {
    var o := Run(Success(data), extract);
    var cols := Columns(data);
    var p := Loop(cols, data, extract, 1);
    LoopOfRun(data, extract);
    if o.Finished? {
      LoopCounts(cols, data, extract, 1);
      LoopPauses(cols, data, extract, 1);
      var tail := [Log(Summary(p.processed))];
      PauseCountConcat([Log(Starting)], p.events);
      PauseCountConcat([Log(Starting)] + p.events, tail);
      NoPauseCount([Log(Starting)]);
      NoPauseCount(tail);
      Framed(p.events, tail, o.trace);
      forall k | 0 <= k < |o.trace| && o.trace[k].Pause?
        ensures k >= 2 && o.trace[k - 1] == Log(Waiting(RateLimitDelay))
        ensures o.trace[k - 2].Log? && o.trace[k - 2].entry.RowCompleted?
        ensures forall k2 :: 0 <= k2 < |o.trace| && o.trace[k2].Write? ==>
                  (k2 < k <==> o.trace[k2].row <= o.trace[k - 2].entry.row)
      {
        var kp := k - 1;
        assert o.trace[k] == p.events[kp];
        assert kp >= 2;
        assert o.trace[k - 1] == p.events[kp - 1] && o.trace[k - 2] == p.events[kp - 2];
        forall k2 | 0 <= k2 < |o.trace| && o.trace[k2].Write?
          ensures k2 < k <==> o.trace[k2].row <= o.trace[k - 2].entry.row
        {
          assert o.trace[k2] == p.events[k2 - 1];
        }
      }
    }
  }

  /** The returned message of a finished run is its progress lines joined,
      ending in "All rows are already processed!" exactly when no row
      succeeded, and in "Processed N job(s) successfully!" otherwise. */
  lemma RunSummary(data: Table, extract: string -> Option<Decoded>)
    requires FitsReadRange(data) && |data| > 0
    ensures var o := Run(Success(data), extract);
            var succeeded := SucceededRows(Columns(data), data, extract, 1);
            o.Finished? ==>
              && Message(o) == Transcript(o.trace[..|o.trace| - 1]) + Render(o.trace[|o.trace| - 1].entry)
              && (o.trace[|o.trace| - 1] == Log(AllProcessed) <==> succeeded == {})
              && (succeeded != {} ==> o.trace[|o.trace| - 1] == Log(ProcessedJobs(|succeeded|)))
  {
    var o := Run(Success(data), extract);
    RunCounts(data, extract);
    if o.Finished? {
      var n := |o.trace| - 1;
      assert o.trace == o.trace[..n] + [o.trace[n]];
      TranscriptConcat(o.trace[..n], [o.trace[n]]);
      assert Transcript([o.trace[n]]) == Render(o.trace[n].entry) + Transcript([]);
    }
  }

  /** A sheet that was read aborts exactly when some data row crashes; the
      returned error is the `.get` failure of the first such row. */
  lemma RunAborts(data: Table, extract: string -> Option<Decoded>)
    requires FitsReadRange(data) && |data| > 0
    ensures var o := Run(Success(data), extract);
            var cols := Columns(data);
            && (o.Aborted? <==> exists j :: 1 <= j < |data| && Crashes(cols, data[j], extract))
            && (o.Aborted? ==>
                  exists j :: 1 <= j < |data| && Crashes(cols, data[j], extract)
                    && (forall j2 :: 1 <= j2 < j ==> !Crashes(cols, data[j2], extract))
                    && Message(o) == " Error: " + NoGetMessage(extract(Description(cols, data[j])).value.typeName))
  {
    var cols := Columns(data);
    LoopOfRun(data, extract);
    LoopCrash(cols, data, extract, 1);
    LoopCrashMessage(cols, data, extract, 1);
  }

  /** The page can tell the three kinds of result apart: the text starts
      with " Error: " exactly when the run aborted, and is the "no data"
      notice exactly when the sheet was empty. */
  lemma RunMessageKinds(sheet: Result<Table, string>, extract: string -> Option<Decoded>)
    requires sheet.Success? ==> FitsReadRange(sheet.value)
    ensures StartsWith(Message(Run(sheet, extract)), " Error: ") <==> Run(sheet, extract).Aborted?
    ensures Message(Run(sheet, extract)) == " No data found in sheet" <==> Run(sheet, extract).NoData?
  {
    var o := Run(sheet, extract);
    var m := Message(o);
    if o.Finished? {
      assert m[0] == Render(Starting)[0] == 'S';
    } else if o.Aborted? {
      assert m[1] == 'E';
      assert " No data found in sheet"[1] == 'N';
    } else {
      assert m[1] == 'N';
    }
  }

  /** A sheet with no pending data row (every row is "Done" or has no
      description) is left untouched: no writes, no pauses, and the
      "All rows are already processed!" summary. */
  lemma RunIdle(data: Table, extract: string -> Option<Decoded>)
    requires FitsReadRange(data) && |data| > 0
    requires forall j :: 1 <= j < |data| ==> !IsPending(Columns(data), data[j])
    ensures Run(Success(data), extract) == Finished([Log(Starting), Log(AllProcessed)], 0)
    ensures Message(Run(Success(data), extract))
            == "Starting job tracker...<br>" + "<br> All rows are already processed!"
  {
    LoopIdle(Columns(data), data, extract, 1);
    var t := [Log(Starting), Log(AllProcessed)];
    assert [Log(Starting)] + [] + [Log(Summary(0))] == t;
    assert t[1..][1..] == [];
  }
}

=== FILE: replay.dfy ===
/** The effect of a run's writes on the sheet, and what the next run over
    the written sheet does. Each write is a RAW single-cell update
    (`update_row`, flask_app.py:109-124). */
module Replay {
  import opened Wrappers
  import opened Extraction
  import opened Sheet
  import opened Selector
  import opened Sync
  import opened Orchestrator
  import opened Tracker
  import opened RunProperties

  /** One row after its cell `col` is set to `v`; a row too short to hold
      that cell is padded with empty cells. */
  function SetCell(row: Row, col: nat, v: string): (r: Row)
    ensures Cell(r, col) == v
    ensures |r| <= if col < |row| then |row| else col + 1
  {
    if col < |row| then row[col := v]
    else row + seq(col - |row|, _ => "") + [v]
  }

  /** Setting one cell leaves every other cell reading as before. */
  lemma SetCellFrame(row: Row, col: nat, v: string, c: nat)
    requires c != col
    ensures Cell(SetCell(row, col, v), c) == Cell(row, c)
  {
    if col >= |row| && c < col + 1 {
      var r := SetCell(row, col, v);
      if c >= |row| {
        assert r[c] == seq(col - |row|, _ => "")[c - |row|];
      }
    }
  }

  /** The table after one event: a write to a cell of the table changes
      that cell; pauses and progress lines change nothing. */
  function ApplyEvent(t: Table, e: Event): (r: Table)
    ensures |r| == |t|
  {
    if e.Write? && 1 <= e.row <= |t| && 'A' <= e.column <= 'Z' then
      t[e.row - 1 := SetCell(t[e.row - 1], ColumnIndex(e.column) as nat, e.value)]
    else t
  }

  /** The table after a trace, event by event. */
  function ApplyEvents(t: Table, events: seq<Event>): (r: Table)
    ensures |r| == |t|
    decreases |events|
  {
    if events == [] then t else ApplyEvents(ApplyEvent(t, events[0]), events[1..])
  }

  /** Writes stay within A:Z, so the written sheet still fits the read
      range. */
  lemma {:induction false} ApplyKeepsFit(t: Table, events: seq<Event>)
    requires FitsReadRange(t)
    ensures FitsReadRange(ApplyEvents(t, events))
    decreases |events|
  {
    if events != [] {
      var t1 := ApplyEvent(t, events[0]);
      var e := events[0];
      if e.Write? && 1 <= e.row <= |t| && 'A' <= e.column <= 'Z' {
        assert |t1[e.row - 1]| <= MaxColumns;
      }
      assert FitsReadRange(t1);
      ApplyKeepsFit(t1, events[1..]);
    }
  }

  /** A row no event writes keeps its contents. */
  lemma {:induction false} ApplyUntouched(t: Table, events: seq<Event>, r: nat)
    requires 1 <= r <= |t|
    requires forall k :: 0 <= k < |events| && events[k].Write? ==> events[k].row != r
    ensures ApplyEvents(t, events)[r - 1] == t[r - 1]
    decreases |events|
  {
    if events != [] {
      var t1 := ApplyEvent(t, events[0]);
      assert t1[r - 1] == t[r - 1];
      forall k | 0 <= k < |events[1..]| && events[1..][k].Write?
        ensures events[1..][k].row != r
      {
        assert events[1..][k] == events[k + 1];
      }
      ApplyUntouched(t1, events[1..], r);
    }
  }

  /** The last write to a row leaves its value in its cell. */
  lemma {:induction false} ApplyLastWrite(t: Table, events: seq<Event>, k: nat)
    requires k < |events| && events[k].Write?
    requires 1 <= events[k].row <= |t| && 'A' <= events[k].column <= 'Z'
    requires forall k2 :: k < k2 < |events| && events[k2].Write? ==> events[k2].row != events[k].row
    ensures Cell(ApplyEvents(t, events)[events[k].row - 1], ColumnIndex(events[k].column) as nat)
            == events[k].value
    decreases |events|
  {
    var e := events[k];
    var t1 := ApplyEvent(t, events[0]);
    forall k2 | k - 1 < k2 < |events[1..]| && events[1..][k2].Write?
      ensures events[1..][k2].row != e.row
    {
      assert events[1..][k2] == events[k2 + 1];
    }
    if k == 0 {
      assert t1[e.row - 1] == SetCell(t[e.row - 1], ColumnIndex(e.column) as nat, e.value);
      ApplyUntouched(t1, events[1..], e.row);
    } else {
      assert events[1..][k - 1] == e;
      ApplyLastWrite(t1, events[1..], k - 1);
    }
  }

  /** A "Done" mark that no later write to its row follows survives in
      the written table. */
  lemma DoneSticks(cols: map<string, nat>, t: Table, events: seq<Event>, n: nat)
    requires ValidColumns(cols) && AutoFillHeader in cols && 1 <= n <= |t|
    requires DoneWritesLast(cols, events)
    requires Write(n, ColumnLetter(cols[AutoFillHeader]), DoneMarker) in events
    ensures AutoFillStatus(cols, ApplyEvents(t, events)[n - 1]) == DoneMarker
  {
    var c := cols[AutoFillHeader];
    var done := Write(n, ColumnLetter(c), DoneMarker);
    var k :| 0 <= k < |events| && events[k] == done;
    DoneEndsRow(cols, events, k);
    ApplyLastWrite(t, events, k);
    assert ColumnIndex(ColumnLetter(c)) == c;
    assert Cell(ApplyEvents(t, events)[n - 1], c) == DoneMarker;
    assert AutoFillColumn(cols) == Some(c);
  }

  /** No write after a "Done" mark goes to the marked row. */
  lemma DoneEndsRow(cols: map<string, nat>, events: seq<Event>, k: nat)
    requires ValidColumns(cols) && DoneWritesLast(cols, events)
    requires k < |events| && events[k].Write? && IsDoneWrite(cols, events[k])
    ensures forall k2 :: k < k2 < |events| && events[k2].Write? ==> events[k2].row != events[k].row
  {
  }

  /** A row that did not succeed is not written, so it is unchanged. */
  lemma RerunRowKept(data: Table, extract: string -> Option<Decoded>, trace: seq<Event>, j: nat)
    requires FitsReadRange(data) && 1 <= j < |data|
    requires Run(Success(data), extract).Finished? && Run(Success(data), extract).trace == trace
    requires !Succeeds(Columns(data), data[j], extract)
    ensures ApplyEvents(data, trace)[j] == data[j]
  {
    RunWrites(data, extract);
    ApplyUntouched(data, trace, j + 1);
  }

  /** After a run finishes on a sheet with an Auto-Fill column and its
      writes (`trace`) are applied, the header is unchanged and a data row
      is pending exactly when it was pending before and did not succeed:
      the rows that were completed are marked "Done", every other row is as
      it was. */
  lemma RerunPending(data: Table, extract: string -> Option<Decoded>, trace: seq<Event>)
    requires FitsReadRange(data) && |data| > 0
    requires AutoFillHeader in Columns(data)
    requires Run(Success(data), extract).Finished? && Run(Success(data), extract).trace == trace
    ensures FitsReadRange(ApplyEvents(data, trace))
    ensures |ApplyEvents(data, trace)| == |data| && ApplyEvents(data, trace)[0] == data[0]
    ensures forall j :: 1 <= j < |data| ==>
              (IsPending(Columns(data), ApplyEvents(data, trace)[j]) <==>
               IsPending(Columns(data), data[j]) && !Succeeds(Columns(data), data[j], extract))
  {
    ApplyKeepsFit(data, trace);
    RunWrites(data, extract);
    ApplyUntouched(data, trace, 1);
    forall j | 1 <= j < |data|
      ensures IsPending(Columns(data), ApplyEvents(data, trace)[j]) <==>
              IsPending(Columns(data), data[j]) && !Succeeds(Columns(data), data[j], extract)
    {
      RerunRow(data, extract, trace, j);
    }
  }

  /** One data row after the writes: marked "Done" when it succeeded,
      unchanged otherwise. */
  lemma RerunRow(data: Table, extract: string -> Option<Decoded>, trace: seq<Event>, j: nat)
    requires FitsReadRange(data) && 1 <= j < |data|
    requires AutoFillHeader in Columns(data)
    requires Run(Success(data), extract).Finished? && Run(Success(data), extract).trace == trace
    ensures IsPending(Columns(data), ApplyEvents(data, trace)[j]) <==>
            IsPending(Columns(data), data[j]) && !Succeeds(Columns(data), data[j], extract)
  {
    if Succeeds(Columns(data), data[j], extract) {
      RunDoneFacts(data, extract, trace, j);
      DoneSticks(Columns(data), data, trace, j + 1);
    } else {
      RerunRowKept(data, extract, trace, j);
    }
  }

  /** The facts of a finished run that keep a succeeded row's "Done"
      mark in place. */
  lemma RunDoneFacts(data: Table, extract: string -> Option<Decoded>, trace: seq<Event>, j: nat)
    requires FitsReadRange(data) && 1 <= j < |data|
    requires AutoFillHeader in Columns(data)
    requires Run(Success(data), extract).Finished? && Run(Success(data), extract).trace == trace
    requires Succeeds(Columns(data), data[j], extract)
    ensures DoneWritesLast(Columns(data), trace)
    ensures Write(j + 1, ColumnLetter(Columns(data)[AutoFillHeader]), DoneMarker) in trace
  {
    RunMarksDone(data, extract, j);
    RunOrder(data, extract);
  }

  /** Re-running right after a run in which every pending row succeeded
      touches nothing: once no extraction fails, the pass is idempotent. */
  lemma RerunIdle(data: Table, extract: string -> Option<Decoded>, trace: seq<Event>)
    requires FitsReadRange(data) && |data| > 0
    requires AutoFillHeader in Columns(data)
    requires Run(Success(data), extract).Finished? && Run(Success(data), extract).trace == trace
    requires forall j :: 1 <= j < |data| && IsPending(Columns(data), data[j]) ==>
               !IsFalsy(extract(Description(Columns(data), data[j])))
    ensures var next := ApplyEvents(data, trace);
            FitsReadRange(next) && |next| > 0
            && Run(Success(next), extract) == Finished([Log(Starting), Log(AllProcessed)], 0)
  {
    var next := ApplyEvents(data, trace);
    RerunPending(data, extract, trace);
    RunAborts(data, extract);
    assert Columns(next) == Columns(data);
    RunIdle(next, extract);
  }
}

=== FILE: selector.dfy ===
/** Which data rows the pass works on (flask_app.py:161-167). */
module Selector {
  import opened Wrappers
  import opened Sheet

  const DescriptionHeader: string := "Job Description"
  const AutoFillHeader: string := "Auto-Fill"
  /** The completion marker of a synchronised row. */
  const DoneMarker: string := "Done"

  /** `col_index.get("Job Description", 0)`: the description column, or
      column 0 when no header carries that name. */
  function DescriptionColumn(cols: map<string, nat>): nat {
    if DescriptionHeader in cols then cols[DescriptionHeader] else 0
  }

  /** `col_index.get("Auto-Fill", -1)`, with the `-1` sentinel written as
      `None`. */
  function AutoFillColumn(cols: map<string, nat>): Option<nat> {
    if AutoFillHeader in cols then Some(cols[AutoFillHeader]) else None
  }

  /** The row's job description, `""` when the row is too short. */
  function Description(cols: map<string, nat>, row: Row): string {
    Cell(row, DescriptionColumn(cols))
  }

  /** The row's Auto-Fill value, `""` when the column is missing from the
      header or the row is too short. */
  function AutoFillStatus(cols: map<string, nat>, row: Row): string {
    match AutoFillColumn(cols)
    case None => ""
    case Some(c) => Cell(row, c)
  }

  /** A row is pending work when it has a description and is not marked
      "Done". A pending row is long enough to hold its description, and
      that cell is not empty. */
  predicate IsPending(cols: map<string, nat>, row: Row)
    ensures IsPending(cols, row) ==> DescriptionColumn(cols) < |row| && row[DescriptionColumn(cols)] != ""
  {
    Description(cols, row) != "" && AutoFillStatus(cols, row) != DoneMarker
  }

  /** Stated against the header row itself: a row is pending exactly when
      the cell under the last "Job Description" header (column 0 without
      one) is non-empty and the cell under the last "Auto-Fill" header
      (none without one) is not "Done". */
  lemma PendingByHeader(header: Row, row: Row, d: nat, a: int)
    requires || (d < |header| && header[d] == DescriptionHeader)
             || (d == 0 && forall j :: 0 <= j < |header| ==> header[j] != DescriptionHeader)
    requires forall j :: d < j < |header| ==> header[j] != DescriptionHeader
    requires || (0 <= a < |header| && header[a] == AutoFillHeader)
             || (a == -1 && forall j :: 0 <= j < |header| ==> header[j] != AutoFillHeader)
    requires forall j :: 0 <= j < |header| && a < j ==> header[j] != AutoFillHeader
    ensures IsPending(HeaderIndex(header), row)
            <==> (d < |row| && row[d] != "")
                 && !(0 <= a < |row| && row[a] == DoneMarker)
  {
    var cols := HeaderIndex(header);
    DescriptionColumnOfHeader(header, d);
    AutoFillColumnOfHeader(header, a);
    assert Description(cols, row) == Cell(row, d);
    assert AutoFillStatus(cols, row) == if a == -1 then "" else Cell(row, a as nat);
  }

  /** The description column is the last "Job Description" column, or
      column 0 when there is none. */
  lemma DescriptionColumnOfHeader(header: Row, d: nat)
    requires || (d < |header| && header[d] == DescriptionHeader)
             || (d == 0 && forall j :: 0 <= j < |header| ==> header[j] != DescriptionHeader)
    requires forall j :: d < j < |header| ==> header[j] != DescriptionHeader
    ensures DescriptionColumn(HeaderIndex(header)) == d
  {
    var cols := HeaderIndex(header);
    if DescriptionHeader in cols {
      var c := cols[DescriptionHeader];
      assert header[c] == DescriptionHeader;
      assert !(c < d) && !(d < c);
    }
  }

  /** The Auto-Fill column is the last "Auto-Fill" column, if any. */
  lemma AutoFillColumnOfHeader(header: Row, a: int)
    requires || (0 <= a < |header| && header[a] == AutoFillHeader)
             || (a == -1 && forall j :: 0 <= j < |header| ==> header[j] != AutoFillHeader)
    requires forall j :: 0 <= j < |header| && a < j ==> header[j] != AutoFillHeader
    ensures a == -1 ==> AutoFillColumn(HeaderIndex(header)) == None
    ensures a != -1 ==> AutoFillColumn(HeaderIndex(header)) == Some(a)
  {
    var cols := HeaderIndex(header);
    if a != -1 {
      assert header[a] in cols;
      var c := cols[AutoFillHeader];
      assert header[c] == AutoFillHeader;
      assert !(c < a) && !(a < c);
    }
  }

  /** Without an Auto-Fill header nothing can ever mark a row done: every
      row with a description stays pending. */
  lemma NoAutoFillMeansAlwaysPending(header: Row, row: Row)
    requires forall j :: 0 <= j < |header| ==> header[j] != AutoFillHeader
    ensures IsPending(HeaderIndex(header), row) <==> Description(HeaderIndex(header), row) != ""
  {
  }
}

=== FILE: sheet.dfy ===
/** The spreadsheet as the synchronisation pass sees it: a snapshot of the
    rows read from the range A:Z, the column map built from the header row,
    and the A1-style address of a single cell. */
module Sheet {
  import opened Text

  /** One row of cell values; the read omits trailing empty cells, so a
      row may be shorter than the header. */
  type Row = seq<string>
  /** The rows of the sheet; row 0 is the header. */
  type Table = seq<Row>

  /** The sheet (tab) every read and write names (flask_app.py:17). */
  const SheetName: string := "Job_Application_Tracker"

  /** The read covers columns A to Z (flask_app.py:104). */
  const MaxColumns: nat := 26

  /** Every row of a snapshot read from A:Z has at most 26 cells. */
  predicate FitsReadRange(t: Table) {
    forall i :: 0 <= i < |t| ==> |t[i]| <= MaxColumns
  }

  /** Bounds-checked cell access: a cell past the end of a short row
      reads as the empty string. */
  function Cell(row: Row, col: nat): string {
    if col < |row| then row[col] else ""
  }

  /** `{header: idx for idx, header in enumerate(headers)}`
      (flask_app.py:146): every header name is a key, and it maps to the
      LAST column carrying that name. */
  function HeaderIndex(header: Row): (cols: map<string, nat>)
    ensures forall j :: 0 <= j < |header| ==> header[j] in cols
    ensures forall name :: name in cols ==> cols[name] < |header| && header[cols[name]] == name
    ensures forall name :: name in cols ==>
              forall j :: cols[name] < j < |header| ==> header[j] != name
  {
    if |header| == 0 then map[]
    else
      var front := HeaderIndex(header[..|header| - 1]);
      HeaderIndexExtend(header, front);
      front[header[|header| - 1] := |header| - 1]
  }

  /** Adding the last header name to the map of the names before it keeps
      the map describing the last occurrence of every name. */
  lemma HeaderIndexExtend(header: Row, front: map<string, nat>)
    requires |header| > 0
    requires forall j :: 0 <= j < |header| - 1 ==> header[j] in front
    requires forall name :: name in front ==> front[name] < |header| - 1 && header[front[name]] == name
    requires forall name :: name in front ==>
               forall j :: front[name] < j < |header| - 1 ==> header[j] != name
    ensures var cols := front[header[|header| - 1] := |header| - 1];
            && (forall j :: 0 <= j < |header| ==> header[j] in cols)
            && (forall name :: name in cols ==> cols[name] < |header| && header[cols[name]] == name)
            && (forall name :: name in cols ==>
                  forall j :: cols[name] < j < |header| ==> header[j] != name)
  {
  }

  /** A column map fit for addressing writes: every index has a letter
      in A..Z, and distinct names have distinct columns. */
  predicate ValidColumns(cols: map<string, nat>) {
    && (forall name :: name in cols ==> cols[name] < MaxColumns)
    && (forall a, b :: a in cols && b in cols && a != b ==> cols[a] != cols[b])
  }

  /** The map built from a header read from A:Z is fit for addressing. */
  lemma HeaderIndexIsValid(header: Row)
    requires |header| <= MaxColumns
    ensures ValidColumns(HeaderIndex(header))
  {
  }

  /** `chr(65 + idx)` (flask_app.py:180, 185): the column letter of a
      0-based column index; `ColumnIndex` reads it back. */
  function ColumnLetter(idx: nat): (c: char)
    requires idx < MaxColumns
    ensures 'A' <= c <= 'Z'
    ensures ColumnIndex(c) == idx
  {
    (65 + idx) as char
  }

  /** The 0-based index of a column letter. */
  function ColumnIndex(c: char): int {
    c as int - 65
  }

  /** The range string of a single-cell update, `SHEET!<letter><row>`
      (flask_app.py:113): it names the tab, then the column letter, then a
      decimal numeral that reads back as the row. */
  function CellRange(column: char, row: nat): (r: string)
    ensures |r| > |SheetName| + 2 && r[..|SheetName| + 1] == SheetName + "!"
    ensures r[|SheetName| + 1] == column
    ensures AllDigits(r[|SheetName| + 2..]) && ParseDecimal(r[|SheetName| + 2..]) == row
  {
    var p := SheetName + "!";
    var r := p + [column] + NatToString(row);
    assert r[|p| + 1..] == NatToString(row);
    r
  }

  /** Distinct cells have distinct addresses: the address names the
      column and the 1-based row unambiguously. */
  lemma CellRangeInjective(c1: char, r1: nat, c2: char, r2: nat)
    requires CellRange(c1, r1) == CellRange(c2, r2)
    ensures c1 == c2 && r1 == r2
  {
    var p := SheetName + "!";
    var a := CellRange(c1, r1);
    var b := CellRange(c2, r2);
    assert a == p + ([c1] + NatToString(r1));
    assert b == p + ([c2] + NatToString(r2));
    assert a[|p|..] == [c1] + NatToString(r1);
    assert b[|p|..] == [c2] + NatToString(r2);
    assert ([c1] + NatToString(r1))[1..] == NatToString(r1);
    assert ([c2] + NatToString(r2))[1..] == NatToString(r2);
    NatToStringInjective(r1, r2);
  }
}

=== FILE: sync.dfy ===
/** The synchronisation pass `process_unfilled_rows` (flask_app.py:129-203)
    as a pure function from a sheet snapshot and an extraction oracle to
    the trace of effects it issues: cell writes, rate-limit pauses and the
    progress lines it collects, followed by the message it returns. */
module Sync {
  import opened Wrappers
  import opened Text
  import opened Extraction
  import opened Sheet
  import opened Selector

  /** The headers the extracted fields are written under
      (flask_app.py:148-153), in the order they are written. */
  const OutputColumns: seq<string> := [
    "Company Name", "Location", "Role", "Employement Type",
    "Salary(Hour or Range)", "Posted date", "Experience Needed?",
    "Key Skills Mentioned", "Extras Skills", "Responsibilities",
    "Job is about", "Projects", "Which Term?"
  ]

  /** Seconds slept after each completed row (flask_app.py:20). */
  const RateLimitDelay: nat := 4

  /** The value written for a field the extraction did not return. */
  const MissingValue: string := "-"

  /** One line appended to the progress log. */
  datatype LogEntry =
    | Starting
    | ProcessingRow(row: nat)
    | ExtractFailed(row: nat)
    | RowCompleted(row: nat)
    | Waiting(seconds: nat)
    | AllProcessed
    | ProcessedJobs(count: nat)

  /** What the pass does, in order: a single-cell write through the sheet
      gateway (1-based row, column letter, raw value), a blocking pause, or a
      progress line. */
  datatype Event =
    | Write(row: nat, column: char, value: string)
    | Pause(seconds: nat)
    | Log(entry: LogEntry)

  /** The text of a progress line (flask_app.py:132, 168, 173, 188, 192,
      196, 198). */
  function Render(e: LogEntry): string {
    match e
    case Starting => "Starting job tracker...<br>"
    case ProcessingRow(n) => "<br>Processing row " + NatToString(n) + "...<br>"
    case ExtractFailed(n) => " Failed to extract data for row " + NatToString(n) + "<br>"
    case RowCompleted(n) => " Row " + NatToString(n) + " completed!<br>"
    case Waiting(s) => "Waiting " + NatToString(s) + " seconds...<br>"
    case AllProcessed => "<br> All rows are already processed!"
    case ProcessedJobs(n) => "<br> Processed " + NatToString(n) + " job(s) successfully!"
  }

  /** Two different progress lines never have the same text: the kind
      of line and the number it carries can be read back from it. */
  lemma RenderInjective(a: LogEntry, b: LogEntry)
    requires Render(a) == Render(b)
    ensures a == b
  {
    RenderShape(a);
    RenderShape(b);
    if a.ProcessingRow? || a.ExtractFailed? || a.RowCompleted? || a.Waiting? || a.ProcessedJobs? {
      RenderFrame(a);
      RenderFrame(b);
    }
    match a
    case ProcessingRow(m) =>
      var n := b.row;
      SameFrame("<br>Processing row ", NatToString(m), NatToString(n), "...<br>");
      NatToStringInjective(m, n);
    case ExtractFailed(m) =>
      var n := b.row;
      SameFrame(" Failed to extract data for row ", NatToString(m), NatToString(n), "<br>");
      NatToStringInjective(m, n);
    case RowCompleted(m) =>
      var n := b.row;
      SameFrame(" Row ", NatToString(m), NatToString(n), " completed!<br>");
      NatToStringInjective(m, n);
    case Waiting(m) =>
      var n := b.seconds;
      SameFrame("Waiting ", NatToString(m), NatToString(n), " seconds...<br>");
      NatToStringInjective(m, n);
    case ProcessedJobs(m) =>
      var n := b.count;
      SameFrame("<br> Processed ", NatToString(m), NatToString(n), " job(s) successfully!");
      NatToStringInjective(m, n);
    case _ =>
  }

  /** The characters at positions 0, 1, 4 and 5 of a line tell its kind. */
  lemma RenderShape(e: LogEntry)
    ensures |Render(e)| >= 6
    ensures e.Starting? ==> Render(e)[0] == 'S'
    ensures e.ProcessingRow? ==> Render(e)[0] == '<' && Render(e)[4] == 'P'
    ensures e.ExtractFailed? ==> Render(e)[0] == ' ' && Render(e)[1] == 'F'
    ensures e.RowCompleted? ==> Render(e)[0] == ' ' && Render(e)[1] == 'R'
    ensures e.Waiting? ==> Render(e)[0] == 'W'
    ensures e.AllProcessed? ==> Render(e)[0] == '<' && Render(e)[4] == ' ' && Render(e)[5] == 'A'
    ensures e.ProcessedJobs? ==> Render(e)[0] == '<' && Render(e)[4] == ' ' && Render(e)[5] == 'P'
  {
    match e
    case Starting => StartingShape(e);
    case AllProcessed => AllProcessedShape(e);
    case ProcessingRow(_) => ProcessingRowShape(e);
    case ExtractFailed(_) => ExtractFailedShape(e);
    case RowCompleted(_) => RowCompletedShape(e);
    case Waiting(_) => WaitingShape(e);
    case ProcessedJobs(_) => ProcessedJobsShape(e);
  }

  lemma StartingShape(e: LogEntry)
    requires e.Starting?
    ensures |Render(e)| >= 6 && Render(e)[0] == 'S'
  {
  }

  lemma AllProcessedShape(e: LogEntry)
    requires e.AllProcessed?
    ensures |Render(e)| >= 6 && Render(e)[0] == '<' && Render(e)[4] == ' ' && Render(e)[5] == 'A'
  {
  }

  lemma ProcessingRowShape(e: LogEntry)
    requires e.ProcessingRow?
    ensures |Render(e)| >= 6 && Render(e)[0] == '<' && Render(e)[4] == 'P'
  {
    NumberedShape(e);
    assert RenderPrefix(e) == "<br>Processing row ";
  }

  lemma ExtractFailedShape(e: LogEntry)
    requires e.ExtractFailed?
    ensures |Render(e)| >= 6 && Render(e)[0] == ' ' && Render(e)[1] == 'F'
  {
    NumberedShape(e);
    assert RenderPrefix(e) == " Failed to extract data for row ";
  }

  lemma RowCompletedShape(e: LogEntry)
    requires e.RowCompleted?
    ensures |Render(e)| >= 6 && Render(e)[0] == ' ' && Render(e)[1] == 'R'
  {
    NumberedShape(e);
    assert RenderPrefix(e) == " Row ";
  }

  lemma WaitingShape(e: LogEntry)
    requires e.Waiting?
    ensures |Render(e)| >= 6 && Render(e)[0] == 'W'
  {
    NumberedShape(e);
    assert RenderPrefix(e) == "Waiting ";
  }

  lemma ProcessedJobsShape(e: LogEntry)
    requires e.ProcessedJobs?
    ensures |Render(e)| >= 6 && Render(e)[0] == '<' && Render(e)[4] == ' ' && Render(e)[5] == 'P'
  {
    NumberedShape(e);
    assert RenderPrefix(e) == "<br> Processed ";
  }

  lemma NumberedShape(e: LogEntry)
    requires e.ProcessingRow? || e.ExtractFailed? || e.RowCompleted? || e.Waiting? || e.ProcessedJobs?
    ensures |Render(e)| >= |RenderPrefix(e)| + |RenderSuffix(e)|
    ensures forall i :: 0 <= i < |RenderPrefix(e)| ==> Render(e)[i] == RenderPrefix(e)[i]
  {
    RenderFrame(e);
    FramedChars(RenderPrefix(e), NatToString(LogNumber(e)), RenderSuffix(e));
  }

  /** A line carrying a number is a fixed prefix, the number, and a fixed
      suffix. */
  lemma RenderFrame(e: LogEntry)
    requires e.ProcessingRow? || e.ExtractFailed? || e.RowCompleted? || e.Waiting? || e.ProcessedJobs?
    ensures Render(e) == RenderPrefix(e) + NatToString(LogNumber(e)) + RenderSuffix(e)
  {
  }

  lemma FramedChars(pre: string, t: string, post: string)
    ensures |pre + t + post| >= |pre| + |post|
    ensures forall i :: 0 <= i < |pre| ==> (pre + t + post)[i] == pre[i]
  {
  }

  /** The number a progress line carries, 0 for lines carrying none. */
  function LogNumber(e: LogEntry): nat {
    match e
    case Waiting(s) => s
    case ProcessedJobs(n) => n
    case _ => LogRow(e)
  }

  function RenderPrefix(e: LogEntry): string {
    match e
    case ProcessingRow(_) => "<br>Processing row "
    case ExtractFailed(_) => " Failed to extract data for row "
    case RowCompleted(_) => " Row "
    case Waiting(_) => "Waiting "
    case ProcessedJobs(_) => "<br> Processed "
    case _ => ""
  }

  function RenderSuffix(e: LogEntry): string {
    match e
    case ProcessingRow(_) => "...<br>"
    case ExtractFailed(_) => "<br>"
    case RowCompleted(_) => " completed!<br>"
    case Waiting(_) => " seconds...<br>"
    case ProcessedJobs(_) => " job(s) successfully!"
    case _ => ""
  }

  /** The middle of two texts with the same frame is the same. */
  lemma SameFrame(pre: string, x: string, y: string, post: string)
    requires pre + x + post == pre + y + post
    ensures x == y
  {
    assert |x| == |y|;
    assert x == (pre + x + post)[|pre|..|pre| + |x|];
    assert y == (pre + y + post)[|pre|..|pre| + |y|];
  }

  /** The 1-based row a progress line names, 0 for lines naming none. */
  function LogRow(e: LogEntry): nat {
    match e
    case ProcessingRow(n) => n
    case ExtractFailed(n) => n
    case RowCompleted(n) => n
    case _ => 0
  }

  /** Every progress line of `events` names a row in `lo..hi`, or none. */
  predicate LogRowsWithin(events: seq<Event>, lo: nat, hi: nat) {
    forall k :: 0 <= k < |events| && events[k].Log? ==>
      LogRow(events[k].entry) == 0 || lo <= LogRow(events[k].entry) <= hi
  }

  /** `extracted_data.get(field, "-")` on a decoded object. */
  function FieldValue(fields: map<string, string>, name: string): string {
    if name in fields then fields[name] else MissingValue
  }

  /** The message of the AttributeError raised by `.get` on a decoded value
      that is not an object. */
  function NoGetMessage(typeName: string): string {
    "'" + typeName + "' object has no attribute 'get'"
  }

  /** Some output field has a column in the header. */
  predicate HasOutputColumn(cols: map<string, nat>) {
    exists j :: 0 <= j < |OutputColumns| && OutputColumns[j] in cols
  }

  /** `e` writes the value extracted for some output field (or "-") into
      that field's column of sheet row `n`. */
  predicate IsFieldWrite(cols: map<string, nat>, n: nat, fields: map<string, string>, e: Event)
    requires ValidColumns(cols)
  {
    && e.Write? && e.row == n
    && exists j :: 0 <= j < |OutputColumns| && OutputColumns[j] in cols
                   && e.column == ColumnLetter(cols[OutputColumns[j]])
                   && e.value == FieldValue(fields, OutputColumns[j])
  }

  /** `e` is a write into the Auto-Fill column. */
  predicate IsDoneWrite(cols: map<string, nat>, e: Event)
    requires ValidColumns(cols)
  {
    e.Write? && AutoFillHeader in cols && e.column == ColumnLetter(cols[AutoFillHeader])
  }

  /** The field loop of flask_app.py:177-181 over `OutputColumns[from..]`.
      On an object every output field with a header column is written,
      nothing else; on any other decoded value the first such field makes
      `.get` raise, and without one nothing happens at all. */
  function FieldWrites(cols: map<string, nat>, n: nat, got: Decoded, from: nat): (r: Result<seq<Event>, string>)
    requires ValidColumns(cols) && from <= |OutputColumns|
    ensures got.Object? ==> r.Success?
    ensures got.Object? ==> forall k :: 0 <= k < |r.value| ==> IsFieldWrite(cols, n, got.fields, r.value[k])
    ensures got.Object? ==>
              forall j :: from <= j < |OutputColumns| && OutputColumns[j] in cols ==>
                Write(n, ColumnLetter(cols[OutputColumns[j]]), FieldValue(got.fields, OutputColumns[j])) in r.value
    ensures got.NonObject? ==>
              (r.Success? <==> forall j :: from <= j < |OutputColumns| ==> OutputColumns[j] !in cols)
    ensures got.NonObject? && r.Success? ==> r.value == []
    ensures r.Failure? ==> got.NonObject? && r.error == NoGetMessage(got.typeName)
    decreases |OutputColumns| - from
  {
    if from == |OutputColumns| then Success([])
    else
      var name := OutputColumns[from];
      if name in cols then
        match got
        case NonObject(typeName, _) => Failure(NoGetMessage(typeName))
        case Object(fields) =>
          var w := Write(n, ColumnLetter(cols[name]), FieldValue(fields, name));
          var rest := FieldWrites(cols, n, got, from + 1);
          assert IsFieldWrite(cols, n, fields, w);
          Success([w] + rest.value)
      else FieldWrites(cols, n, got, from + 1)
  }

  /** No two output fields share a name. */
  lemma OutputColumnsDistinct()
    ensures forall i, j :: 0 <= i < j < |OutputColumns| ==> OutputColumns[i] != OutputColumns[j]
  {
  }

  /** `c` is the column letter of an output field at or after `from` that
      has a header column. */
  predicate FieldColumnFrom(cols: map<string, nat>, from: nat, c: char)
    requires ValidColumns(cols)
  {
    exists j :: from <= j < |OutputColumns| && OutputColumns[j] in cols && c == ColumnLetter(cols[OutputColumns[j]])
  }

  /** On an object the field loop writes each column at most once: no two
      of its writes share a column. */
  lemma {:induction false} FieldWritesOnePerColumn(cols: map<string, nat>, n: nat, got: Decoded, from: nat)
    requires ValidColumns(cols) && from <= |OutputColumns| && got.Object?
    ensures forall k1, k2 :: 0 <= k1 < k2 < |FieldWrites(cols, n, got, from).value| ==>
              FieldWrites(cols, n, got, from).value[k1].column != FieldWrites(cols, n, got, from).value[k2].column
    decreases |OutputColumns| - from
  {
    if from < |OutputColumns| {
      FieldWritesOnePerColumn(cols, n, got, from + 1);
      var name := OutputColumns[from];
      if name in cols {
        var rest := FieldWrites(cols, n, got, from + 1).value;
        FieldWritesColumns(cols, n, got, from + 1);
        DistinctColumnsCons(cols, from, Write(n, ColumnLetter(cols[name]), FieldValue(got.fields, name)), rest);
      }
    }
  }

  /** A write to field `from`'s column put in front of distinct-column
      writes to later fields' columns keeps the columns distinct. */
  lemma DistinctColumnsCons(cols: map<string, nat>, from: nat, head: Event, rest: seq<Event>)
    requires ValidColumns(cols) && from < |OutputColumns| && OutputColumns[from] in cols
    requires head.Write? && head.column == ColumnLetter(cols[OutputColumns[from]])
    requires forall k :: 0 <= k < |rest| ==> rest[k].Write? && FieldColumnFrom(cols, from + 1, rest[k].column)
    requires forall k1, k2 :: 0 <= k1 < k2 < |rest| ==> rest[k1].column != rest[k2].column
    ensures forall k1, k2 :: 0 <= k1 < k2 < |[head] + rest| ==> ([head] + rest)[k1].column != ([head] + rest)[k2].column
  {
    var ws := [head] + rest;
    forall k1, k2 | 0 <= k1 < k2 < |ws|
      ensures ws[k1].column != ws[k2].column
    {
      assert ws[k2] == rest[k2 - 1];
      if k1 > 0 {
        assert ws[k1] == rest[k1 - 1];
      } else {
        LaterFieldColumn(cols, from, rest[k2 - 1].column);
      }
    }
  }

  /** Every write of the field loop from `from` on goes to the column of a
      field at or after `from`. */
  lemma {:induction false} FieldWritesColumns(cols: map<string, nat>, n: nat, got: Decoded, from: nat)
    requires ValidColumns(cols) && from <= |OutputColumns| && got.Object?
    ensures forall k :: 0 <= k < |FieldWrites(cols, n, got, from).value| ==>
              FieldColumnFrom(cols, from, FieldWrites(cols, n, got, from).value[k].column)
    decreases |OutputColumns| - from
  {
    if from < |OutputColumns| {
      FieldWritesColumns(cols, n, got, from + 1);
      var rest := FieldWrites(cols, n, got, from + 1).value;
      var ws := FieldWrites(cols, n, got, from).value;
      forall k | 0 <= k < |ws|
        ensures FieldColumnFrom(cols, from, ws[k].column)
      {
        if OutputColumns[from] in cols && k == 0 {
          assert ws[0].column == ColumnLetter(cols[OutputColumns[from]]);
        } else {
          var kr := if OutputColumns[from] in cols then k - 1 else k;
          assert ws[k] == rest[kr];
          WidenFieldColumn(cols, from, rest[kr].column);
        }
      }
    }
  }

  lemma WidenFieldColumn(cols: map<string, nat>, from: nat, c: char)
    requires ValidColumns(cols) && FieldColumnFrom(cols, from + 1, c)
    ensures FieldColumnFrom(cols, from, c)
  {
    var j :| from + 1 <= j < |OutputColumns| && OutputColumns[j] in cols && c == ColumnLetter(cols[OutputColumns[j]]);
  }

  /** A later field's column is not the column of field `from`. */
  lemma LaterFieldColumn(cols: map<string, nat>, from: nat, c: char)
    requires ValidColumns(cols) && from < |OutputColumns| && OutputColumns[from] in cols
    requires FieldColumnFrom(cols, from + 1, c)
    ensures c != ColumnLetter(cols[OutputColumns[from]])
  {
    var j :| from + 1 <= j < |OutputColumns| && OutputColumns[j] in cols && c == ColumnLetter(cols[OutputColumns[j]]);
    OutputColumnsDistinct();
    assert ColumnIndex(c) == cols[OutputColumns[j]] != cols[OutputColumns[from]];
  }

  /** The completion write of flask_app.py:184-186, issued only when the
      header has an Auto-Fill column. */
  function DoneWrite(cols: map<string, nat>, n: nat): seq<Event>
    requires ValidColumns(cols)
  {
    match AutoFillColumn(cols)
    case None => []
    case Some(c) => [Write(n, ColumnLetter(c), DoneMarker)]
  }

  /** A pending row whose extraction yields a truthy non-object while the
      header has an output column: `.get` raises and the run aborts. */
  predicate Crashes(cols: map<string, nat>, row: Row, extract: string -> Option<Decoded>) {
    && IsPending(cols, row)
    && var got := extract(Description(cols, row));
    && got.Some? && got.value.NonObject? && got.value.truthy
    && HasOutputColumn(cols)
  }

  /** A pending row whose extraction is truthy and does not abort the run:
      it is written, marked and counted. */
  predicate Succeeds(cols: map<string, nat>, row: Row, extract: string -> Option<Decoded>) {
    && IsPending(cols, row)
    && !IsFalsy(extract(Description(cols, row)))
    && !Crashes(cols, row, extract)
  }

  /** A write the pass issues for data row `row`, addressed to sheet row
      `n`: "Done" into the Auto-Fill column, or an extracted field (or "-")
      into that field's column. */
  predicate ExpectedWrite(cols: map<string, nat>, row: Row, extract: string -> Option<Decoded>, n: nat, e: Event)
    requires ValidColumns(cols)
  {
    && e.Write? && e.row == n
    && (|| (IsDoneWrite(cols, e) && e.value == DoneMarker)
        || (var got := extract(Description(cols, row));
            got.Some? && got.value.Object? && IsFieldWrite(cols, n, got.value.fields, e)))
  }

  /** Within each row, no write follows the write into the Auto-Fill
      column. */
  predicate DoneWritesLast(cols: map<string, nat>, events: seq<Event>)
    requires ValidColumns(cols)
  {
    forall k1, k2 ::
      (0 <= k1 < k2 < |events| && events[k1].Write? && events[k2].Write? && events[k1].row == events[k2].row)
      ==> !IsDoneWrite(cols, events[k1])
  }

  /** Writes go to non-decreasing rows: all of one row's writes precede
      every write to a later row. */
  predicate WritesInRowOrder(events: seq<Event>) {
    forall k1, k2 :: 0 <= k1 < k2 < |events| && events[k1].Write? && events[k2].Write?
                     ==> events[k1].row <= events[k2].row
  }

  /** What one iteration of the row loop issued, whether it counted the row,
      and the error that escaped it, if any. */
  datatype Step = Step(events: seq<Event>, succeeded: bool, crash: Option<string>)

  /** One iteration of the row loop (flask_app.py:159-193) for data row `i`,
      which is sheet row `i + 1`. */
  function RowStep(cols: map<string, nat>, i: nat, row: Row, extract: string -> Option<Decoded>): (s: Step)
    requires ValidColumns(cols)
    ensures s.succeeded <==> Succeeds(cols, row, extract)
    ensures s.crash.Some? <==> Crashes(cols, row, extract)
    ensures !IsPending(cols, row) ==> s.events == []
  {
    if !IsPending(cols, row) then Step([], false, None)
    else
      var n := i + 1;
      var got := extract(Description(cols, row));
      if IsFalsy(got) then Step([Log(ProcessingRow(n)), Log(ExtractFailed(n))], false, None)
      else
        match FieldWrites(cols, n, got.value, 0)
        case Failure(err) => Step([Log(ProcessingRow(n))], false, Some(err))
        case Success(writes) =>
          var done := DoneWrite(cols, n);
          Step([Log(ProcessingRow(n))] + writes + done + Completion(n), true, None)
  }

  /** Only an iteration that succeeds writes, every write it issues is one
      the pass issues for that row at sheet row `i + 1`, and the "Done" mark
      is the iteration's last write. */
  lemma RowStepWrites(cols: map<string, nat>, i: nat, row: Row, extract: string -> Option<Decoded>)
    requires ValidColumns(cols)
    ensures var s := RowStep(cols, i, row, extract);
            && (forall k :: 0 <= k < |s.events| && s.events[k].Write? ==>
                  Succeeds(cols, row, extract) && ExpectedWrite(cols, row, extract, i + 1, s.events[k]))
            && DoneWritesLast(cols, s.events)
  {
    var n := i + 1;
    var got := extract(Description(cols, row));
    if IsPending(cols, row) && !IsFalsy(got) {
      match FieldWrites(cols, n, got.value, 0)
      case Failure(_) =>
      case Success(writes) =>
        RowWritesShape(cols, row, extract, n, got, writes, DoneWrite(cols, n), Completion(n));
    }
  }

  /** An iteration that raises reports `.get`'s error for the decoded
      value's type. */
  lemma RowStepCrash(cols: map<string, nat>, i: nat, row: Row, extract: string -> Option<Decoded>)
    requires ValidColumns(cols)
    ensures var s := RowStep(cols, i, row, extract);
            s.crash.Some? ==>
              var got := extract(Description(cols, row));
              got.Some? && got.value.NonObject? && s.crash.value == NoGetMessage(got.value.typeName)
  {
  }

  /** The per-row write facts behind `RowStep`'s contract. */
  lemma RowWritesShape(cols: map<string, nat>, row: Row, extract: string -> Option<Decoded>, n: nat,
                       got: Option<Decoded>, writes: seq<Event>, done: seq<Event>, tail: seq<Event>)
    requires ValidColumns(cols)
    requires got == extract(Description(cols, row)) && got.Some?
    requires FieldWrites(cols, n, got.value, 0) == Success(writes)
    requires done == DoneWrite(cols, n)
    requires forall k :: 0 <= k < |tail| ==> !tail[k].Write?
    ensures var events := [Log(ProcessingRow(n))] + writes + done + tail;
            && (forall k :: 0 <= k < |events| && events[k].Write? ==> ExpectedWrite(cols, row, extract, n, events[k]))
            && DoneWritesLast(cols, events)
  {
    forall k | 0 <= k < |writes|
      ensures ExpectedWrite(cols, row, extract, n, writes[k]) && !IsDoneWrite(cols, writes[k])
    {
      if got.value.Object? {
        FieldWriteIsNotDone(cols, n, got.value.fields, writes[k]);
      }
    }
    RowWritesExpected(cols, row, extract, n, writes, done, tail);
    RowDoneLast(cols, writes, done, tail, n);
  }

  lemma RowWritesExpected(cols: map<string, nat>, row: Row, extract: string -> Option<Decoded>, n: nat,
                          writes: seq<Event>, done: seq<Event>, tail: seq<Event>)
    requires ValidColumns(cols)
    requires forall k :: 0 <= k < |writes| ==> ExpectedWrite(cols, row, extract, n, writes[k])
    requires done == DoneWrite(cols, n)
    requires forall k :: 0 <= k < |tail| ==> !tail[k].Write?
    ensures var events := [Log(ProcessingRow(n))] + writes + done + tail;
            forall k :: 0 <= k < |events| && events[k].Write? ==> ExpectedWrite(cols, row, extract, n, events[k])
  {
    var events := [Log(ProcessingRow(n))] + writes + done + tail;
    var front := 1 + |writes| + |done|;
    forall k | 0 <= k < |events|
      ensures events[k].Write? ==> ExpectedWrite(cols, row, extract, n, events[k])
    {
      if 1 <= k < 1 + |writes| {
        assert events[k] == writes[k - 1];
      } else if k >= front {
        assert events[k] == tail[k - front];
      } else if k > 0 {
        assert events[k] == done[0];
      }
    }
  }

  lemma RowDoneLast(cols: map<string, nat>, writes: seq<Event>, done: seq<Event>, tail: seq<Event>, n: nat)
    requires ValidColumns(cols)
    requires forall k :: 0 <= k < |writes| ==> !IsDoneWrite(cols, writes[k])
    requires |done| <= 1
    requires forall k :: 0 <= k < |tail| ==> !tail[k].Write?
    ensures DoneWritesLast(cols, [Log(ProcessingRow(n))] + writes + done + tail)
  {
    var events := [Log(ProcessingRow(n))] + writes + done + tail;
    var front := 1 + |writes| + |done|;
    forall k1, k2 | 0 <= k1 < k2 < |events|
      ensures events[k1].Write? && events[k2].Write? ==> !IsDoneWrite(cols, events[k1])
    {
      if 1 <= k1 < 1 + |writes| {
        assert events[k1] == writes[k1 - 1];
      } else if k1 >= front {
        assert events[k1] == tail[k1 - front];
      } else if k1 > 0 {
        assert k2 >= front;
        assert events[k2] == tail[k2 - front];
      }
    }
  }

  /** No output field is called "Auto-Fill", and distinct header names have
      distinct columns, so a field write never lands in the Auto-Fill
      column. */
  lemma FieldWriteIsNotDone(cols: map<string, nat>, n: nat, fields: map<string, string>, e: Event)
    requires ValidColumns(cols) && IsFieldWrite(cols, n, fields, e)
    ensures !IsDoneWrite(cols, e)
  {
    if AutoFillHeader in cols {
      var j :| 0 <= j < |OutputColumns| && OutputColumns[j] in cols
               && e.column == ColumnLetter(cols[OutputColumns[j]])
               && e.value == FieldValue(fields, OutputColumns[j]);
      assert |OutputColumns[j]| != |AutoFillHeader|;
      assert cols[OutputColumns[j]] != cols[AutoFillHeader];
    }
  }

  /** The number of pauses among `events`. */
  function PauseCount(events: seq<Event>): nat {
    if |events| == 0 then 0
    else (if events[0].Pause? then 1 else 0) + PauseCount(events[1..])
  }

  lemma {:induction false} PauseCountConcat(a: seq<Event>, b: seq<Event>)
    ensures PauseCount(a + b) == PauseCount(a) + PauseCount(b)
    decreases |a|
  {
    if |a| > 0 {
      assert (a + b)[1..] == a[1..] + b;
      PauseCountConcat(a[1..], b);
    } else {
      assert a + b == b;
    }
  }

  /** The lines and the pause that close a completed iteration. */
  function Completion(n: nat): seq<Event> {
    [Log(RowCompleted(n)), Log(Waiting(RateLimitDelay)), Pause(RateLimitDelay)]
  }

  /** Every event of `ws` is a cell write. */
  predicate AllWrites(ws: seq<Event>) {
    forall k :: 0 <= k < |ws| ==> ws[k].Write?
  }

  /** The events of a completed iteration for sheet row `n`, as a shape:
      its progress lines name row `n` or none, announce it, report it
      completed and never failed. */
  lemma CompletedLogs(n: nat, writes: seq<Event>, done: seq<Event>)
    requires AllWrites(writes) && AllWrites(done)
    ensures var events := [Log(ProcessingRow(n))] + writes + done + Completion(n);
            && LogRowsWithin(events, n, n)
            && Log(ProcessingRow(n)) in events
            && Log(RowCompleted(n)) in events
            && Log(ExtractFailed(n)) !in events
  {
    var events := [Log(ProcessingRow(n))] + writes + done + Completion(n);
    var front := 1 + |writes| + |done|;
    forall k | 0 <= k < |events|
      ensures !events[k].Log? || events[k] in [Log(ProcessingRow(n)), Log(RowCompleted(n)), Log(Waiting(RateLimitDelay))]
    {
      if 1 <= k < 1 + |writes| {
        assert events[k] == writes[k - 1];
      } else if k >= front {
        assert events[k] == Completion(n)[k - front];
      } else if k > 0 {
        assert events[k] == done[k - 1 - |writes|];
      }
    }
    assert events[0] == Log(ProcessingRow(n));
    assert events[front] == Log(RowCompleted(n));
  }

  /** A completed iteration holds exactly one pause, as its last event,
      right after its completion and waiting lines. */
  lemma CompletedPauses(n: nat, writes: seq<Event>, done: seq<Event>)
    requires AllWrites(writes) && AllWrites(done)
    ensures var events := [Log(ProcessingRow(n))] + writes + done + Completion(n);
            && PauseCount(events) == 1
            && ClosedByPause(events, n)
  {
    var front := [Log(ProcessingRow(n))] + writes + done;
    var events := front + Completion(n);
    forall k | 0 <= k < |front|
      ensures !front[k].Pause?
    {
      if 1 <= k < 1 + |writes| {
        assert front[k] == writes[k - 1];
      } else if k > 0 {
        assert front[k] == done[k - 1 - |writes|];
      }
    }
    NoPauseCount(front);
    PauseCountConcat(front, Completion(n));
    var logs := [Log(RowCompleted(n)), Log(Waiting(RateLimitDelay))];
    assert Completion(n) == logs + [Pause(RateLimitDelay)];
    NoPauseCount(logs);
    PauseCountConcat(logs, [Pause(RateLimitDelay)]);
    assert [Pause(RateLimitDelay)][1..] == [];
    forall k | 0 <= k < |front|
      ensures events[k] == front[k]
    {
    }
  }

  /** The writes a completed iteration issues are all cell writes. */
  lemma CompletedWrites(cols: map<string, nat>, n: nat, got: Decoded, writes: seq<Event>)
    requires ValidColumns(cols)
    requires FieldWrites(cols, n, got, 0) == Success(writes)
    ensures AllWrites(writes) && AllWrites(DoneWrite(cols, n))
  {
  }

  /** The progress lines of one iteration name no row but its own; it
      announces the row iff the row is pending, reports a failure iff the
      extraction was falsy, and reports completion iff the row succeeded. */
  lemma RowStepLogs(cols: map<string, nat>, i: nat, row: Row, extract: string -> Option<Decoded>)
    requires ValidColumns(cols)
    ensures var s := RowStep(cols, i, row, extract);
            && LogRowsWithin(s.events, i + 1, i + 1)
            && (Log(ProcessingRow(i + 1)) in s.events <==> IsPending(cols, row))
            && (Log(ExtractFailed(i + 1)) in s.events <==>
                  IsPending(cols, row) && IsFalsy(extract(Description(cols, row))))
            && (Log(RowCompleted(i + 1)) in s.events <==> s.succeeded)
  {
    var s := RowStep(cols, i, row, extract);
    var n := i + 1;
    if IsPending(cols, row) {
      var got := extract(Description(cols, row));
      if IsFalsy(got) {
        assert s.events == [Log(ProcessingRow(n)), Log(ExtractFailed(n))];
      } else {
        match FieldWrites(cols, n, got.value, 0)
        case Failure(err) =>
          assert s.events == [Log(ProcessingRow(n))];
        case Success(writes) =>
          assert s.events == [Log(ProcessingRow(n))] + writes + DoneWrite(cols, n) + Completion(n);
          CompletedWrites(cols, n, got.value, writes);
          CompletedLogs(n, writes, DoneWrite(cols, n));
      }
    }
  }

  /** Any pause in `events` is its last event and directly follows the
      completion line of sheet row `n` and the waiting line. */
  predicate ClosedByPause(events: seq<Event>, n: nat) {
    forall k :: 0 <= k < |events| && events[k].Pause? ==>
      && k == |events| - 1 && k >= 2
      && events[k] == Pause(RateLimitDelay)
      && events[k - 1] == Log(Waiting(RateLimitDelay))
      && events[k - 2] == Log(RowCompleted(n))
  }

  /** A succeeded row issues exactly one pause, as its last event, right
      after the completion and waiting lines; other rows issue none. */
  lemma RowStepPause(cols: map<string, nat>, i: nat, row: Row, extract: string -> Option<Decoded>)
    requires ValidColumns(cols)
    ensures var s := RowStep(cols, i, row, extract);
            && PauseCount(s.events) == (if s.succeeded then 1 else 0)
            && ClosedByPause(s.events, i + 1)
  {
    var s := RowStep(cols, i, row, extract);
    var n := i + 1;
    if s.succeeded {
      var got := extract(Description(cols, row));
      var writes := FieldWrites(cols, n, got.value, 0).value;
      assert s.events == [Log(ProcessingRow(n))] + writes + DoneWrite(cols, n) + Completion(n);
      CompletedWrites(cols, n, got.value, writes);
      CompletedPauses(n, writes, DoneWrite(cols, n));
    } else {
      assert forall k :: 0 <= k < |s.events| ==> s.events[k].Log?;
      NoPauseCount(s.events);
    }
  }

  lemma {:induction false} NoPauseCount(events: seq<Event>)
    requires forall k :: 0 <= k < |events| ==> !events[k].Pause?
    ensures PauseCount(events) == 0
    decreases |events|
  {
    if |events| > 0 {
      NoPauseCount(events[1..]);
    }
  }

  /** A succeeded row is marked "Done" when the header has an Auto-Fill
      column, and, when its extraction is an object, gets every output
      field that has a column: the extracted value, or "-" for a field the
      extraction left out. */
  lemma RowStepComplete(cols: map<string, nat>, i: nat, row: Row, extract: string -> Option<Decoded>)
    requires ValidColumns(cols)
    requires Succeeds(cols, row, extract)
    ensures var s := RowStep(cols, i, row, extract);
            var got := extract(Description(cols, row));
            && (AutoFillHeader in cols ==>
                  Write(i + 1, ColumnLetter(cols[AutoFillHeader]), DoneMarker) in s.events)
            && (got.value.Object? ==>
                  forall j :: 0 <= j < |OutputColumns| && OutputColumns[j] in cols ==>
                    Write(i + 1, ColumnLetter(cols[OutputColumns[j]]),
                          FieldValue(got.value.fields, OutputColumns[j])) in s.events)
  {
    var s := RowStep(cols, i, row, extract);
    var n := i + 1;
    var got := extract(Description(cols, row));
    var writes := FieldWrites(cols, n, got.value, 0).value;
    var done := DoneWrite(cols, n);
    assert s.events == [Log(ProcessingRow(n))] + writes + done + Completion(n);
    assert forall e :: e in writes ==> e in s.events;
    assert forall e :: e in done ==> e in s.events;
  }
}

=== FILE: text.dfy ===
/** The few Python string operations the synchronisation pass relies on:
    `str.strip()`, `str.startswith`, `str.replace(old, "")` and `str(n)` for
    a non-negative integer. */
module Text {

  /** Python's `str.isspace` on one character: exactly the characters that
      `str.strip()` with no argument removes. */
  predicate IsSpace(c: char) {
    var k := c as int;
    || k == 0x20
    || 0x09 <= k <= 0x0D
    || 0x1C <= k <= 0x1F
    || k == 0x85 || k == 0xA0 || k == 0x1680
    || 0x2000 <= k <= 0x200A
    || k == 0x2028 || k == 0x2029 || k == 0x202F || k == 0x205F || k == 0x3000
  }

  predicate AllSpace(s: string) {
    forall k :: 0 <= k < |s| ==> IsSpace(s[k])
  }

  /** Neither end of `s` is whitespace: what `strip()` guarantees. */
  predicate IsTrimmed(s: string) {
    |s| == 0 || (!IsSpace(s[0]) && !IsSpace(s[|s| - 1]))
  }

  /** Drops leading whitespace; the result is a suffix of `s`. */
  function TrimStart(s: string): (r: string)
    ensures |r| <= |s| && r == s[|s| - |r|..]
    ensures AllSpace(s[..|s| - |r|])
    ensures |r| > 0 ==> !IsSpace(r[0])
    decreases |s|
  {
    if |s| > 0 && IsSpace(s[0]) then
      var r := TrimStart(s[1..]);
      SpacePrefixStep(s, |s| - |r|);
      assert s[1..][|s| - 1 - |r|..] == s[|s| - |r|..];
      r
    else s
  }

  /** A whitespace character followed by a whitespace run is a whitespace
      run. */
  lemma SpacePrefixStep(s: string, a: nat)
    requires 0 < a <= |s| && IsSpace(s[0]) && AllSpace(s[1..][..a - 1])
    ensures AllSpace(s[..a])
  {
    forall k | 1 <= k < a
      ensures IsSpace(s[k])
    {
      assert s[k] == s[1..][..a - 1][k - 1];
    }
  }

  /** A whitespace run followed by a whitespace character is a whitespace
      run. */
  lemma SpaceSuffixStep(s: string, b: nat)
    requires b < |s| && IsSpace(s[|s| - 1]) && AllSpace(s[..|s| - 1][b..])
    ensures AllSpace(s[b..])
  {
    forall k | b <= k < |s| - 1
      ensures IsSpace(s[k])
    {
      assert s[k] == s[..|s| - 1][b..][k - b];
    }
  }

  /** Drops trailing whitespace; the result is a prefix of `s`. */
  function TrimEnd(s: string): (r: string)
    ensures |r| <= |s| && r == s[..|r|]
    ensures AllSpace(s[|r|..])
    ensures |r| > 0 ==> !IsSpace(r[|r| - 1])
    decreases |s|
  {
    if |s| > 0 && IsSpace(s[|s| - 1]) then
      var r := TrimEnd(s[..|s| - 1]);
      SpaceSuffixStep(s, |r|);
      assert s[..|s| - 1][..|r|] == s[..|r|];
      r
    else s
  }

  /** Python's `s.strip()`. */
  function Trim(s: string): (r: string)
    ensures IsTrimmed(r)
    ensures |r| <= |s|
  {
    TrimEnd(TrimStart(s))
  }

  /** `strip()` keeps a contiguous piece of `s`, starting where the
      leading whitespace ends. */
  lemma TrimIsSlice(s: string) returns (a: nat)
    ensures a == |s| - |TrimStart(s)|
    ensures a + |Trim(s)| <= |s| && Trim(s) == s[a..a + |Trim(s)|]
  {
    var t := TrimStart(s);
    var r := TrimEnd(t);
    a := |s| - |t|;
    assert Trim(s) == r;
    SliceOfSuffix(s, a, t, |r|);
  }

  lemma SliceOfSuffix(s: string, a: nat, t: string, m: nat)
    requires a <= |s| && t == s[a..] && m <= |t|
    ensures a + m <= |s| && t[..m] == s[a..a + m]
  {
    forall k | 0 <= k < m
      ensures t[..m][k] == s[a..a + m][k]
    {
      assert t[k] == s[a + k];
    }
  }

  /** What `strip()` cuts away on either side is whitespace only. */
  lemma TrimCutsOnlySpace(s: string)
    ensures var a := |s| - |TrimStart(s)|;
            a + |Trim(s)| <= |s| && AllSpace(s[..a]) && AllSpace(s[a + |Trim(s)|..])
  {
    var t := TrimStart(s);
    SpaceTail(s, |s| - |t|, t, |TrimEnd(t)|);
  }

  lemma SpaceTail(s: string, a: nat, t: string, j: nat)
    requires a <= |s| && t == s[a..] && j <= |t|
    requires AllSpace(t[j..])
    ensures AllSpace(s[a + j..])
  {
    assert s[a + j..] == t[j..];
  }

  /** Whitespace around a piece that is already trimmed is exactly what
      `strip()` removes. */
  lemma {:induction false} TrimPadded(w1: string, x: string, w2: string)
    requires AllSpace(w1) && AllSpace(w2) && IsTrimmed(x)
    ensures Trim(w1 + x + w2) == x
  {
    TrimStartPadded(w1, x + w2, IsTrimmed(x) && |x| > 0);
    if |x| > 0 {
      assert w1 + x + w2 == w1 + (x + w2);
      TrimEndPadded(x, w2);
    } else {
      assert w1 + x + w2 == w1 + w2;
      assert TrimStart(w1 + w2) == "" by {
        TrimStartAllSpace(w1 + w2);
      }
    }
  }

  lemma {:induction false} TrimStartAllSpace(w: string)
    requires AllSpace(w)
    ensures TrimStart(w) == ""
    decreases |w|
  {
    if |w| > 0 {
      TrimStartAllSpace(w[1..]);
    }
  }

  lemma {:induction false} TrimStartPadded(w: string, y: string, yStartsSolid: bool)
    requires AllSpace(w)
    requires yStartsSolid ==> |y| > 0 && !IsSpace(y[0])
    ensures yStartsSolid ==> TrimStart(w + y) == y
    decreases |w|
  {
    if yStartsSolid && |w| > 0 {
      assert (w + y)[1..] == w[1..] + y;
      TrimStartPadded(w[1..], y, yStartsSolid);
    } else if yStartsSolid {
      assert w + y == y;
    }
  }

  lemma {:induction false} TrimEndPadded(x: string, w: string)
    requires AllSpace(w)
    requires |x| > 0 && !IsSpace(x[|x| - 1]) && !IsSpace(x[0])
    ensures TrimEnd(x + w) == x
    decreases |w|
  {
    if |w| > 0 {
      assert (x + w)[..|x + w| - 1] == x + w[..|w| - 1];
      TrimEndPadded(x, w[..|w| - 1]);
    } else {
      assert x + w == x;
    }
  }

  /** Python's `s.startswith(p)`. */
  predicate StartsWith(s: string, p: string) {
    |p| <= |s| && s[..|p|] == p
  }

  /** `p` occurs in `s` starting at position `k`. */
  predicate OccursAt(s: string, p: string, k: int) {
    0 <= k && k + |p| <= |s| && s[k..k + |p|] == p
  }

  /** `r` is obtained from `s` by deleting some of its characters, keeping
      the others in order. */
  predicate IsSubsequence(r: string, s: string)
    decreases |s|
  {
    || r == []
    || (&& |s| > 0
        && ((|r| > 0 && r[0] == s[0] && IsSubsequence(r[1..], s[1..])) || IsSubsequence(r, s[1..])))
  }

  lemma {:induction false} SubsequenceOfItself(s: string)
    ensures IsSubsequence(s, s)
    decreases |s|
  {
    if s != [] {
      SubsequenceOfItself(s[1..]);
    }
  }

  /** A subsequence of a suffix is a subsequence of the whole. */
  lemma {:induction false} SubsequenceOfSuffix(r: string, s: string, k: nat)
    requires k <= |s| && IsSubsequence(r, s[k..])
    ensures IsSubsequence(r, s)
    decreases k
  {
    if k > 0 {
      assert s[1..][k - 1..] == s[k..];
      SubsequenceOfSuffix(r, s[1..], k - 1);
    }
  }

  /** Python's `s.replace(p, "")`: scanning left to right, every
      non-overlapping occurrence of `p` is deleted. Only characters are
      deleted: the result is a subsequence of the text. */
  function RemoveAll(s: string, p: string): (r: string)
    requires |p| > 0
    ensures |r| <= |s|
    ensures IsSubsequence(r, s)
    decreases |s|
  {
    if |s| < |p| then
      SubsequenceOfItself(s);
      s
    else if s[..|p|] == p then
      var rest := RemoveAll(s[|p|..], p);
      SubsequenceOfSuffix(rest, s, |p|);
      rest
    else
      var rest := RemoveAll(s[1..], p);
      assert ([s[0]] + rest)[1..] == rest;
      [s[0]] + rest
  }

  /** Text with no occurrence of `p` passes through `replace` unchanged. */
  lemma {:induction false} RemoveAllAbsent(s: string, p: string)
    requires |p| > 0
    requires forall k :: !OccursAt(s, p, k)
    ensures RemoveAll(s, p) == s
    decreases |s|
  {
    if |s| >= |p| {
      assert !OccursAt(s, p, 0);
      assert forall k :: !OccursAt(s[1..], p, k) by {
        forall k ensures !OccursAt(s[1..], p, k) {
          assert !OccursAt(s, p, k + 1);
          if 0 <= k && k + |p| <= |s| - 1 {
            assert s[1..][k..k + |p|] == s[k + 1..k + 1 + |p|];
          }
        }
      }
      RemoveAllAbsent(s[1..], p);
      assert s == [s[0]] + s[1..];
    }
  }

  /** The decimal digit character for `d`. */
  function Digit(d: nat): (c: char)
    requires d < 10
    ensures '0' <= c <= '9'
  {
    (('0' as int) + d) as char
  }

  predicate AllDigits(s: string) {
    forall k :: 0 <= k < |s| ==> '0' <= s[k] <= '9'
  }

  /** Reads a run of decimal digits back as a number. */
  function ParseDecimal(s: string): nat
    requires AllDigits(s)
  {
    if |s| == 0 then 0
    else ParseDecimal(s[..|s| - 1]) * 10 + (s[|s| - 1] as int - '0' as int)
  }

  /** Python's `str(n)` for `n >= 0`: decimal digits with no leading zero,
      read back by `ParseDecimal`. */
  function NatToString(n: nat): (r: string)
    ensures |r| > 0 && AllDigits(r)
    ensures |r| > 1 ==> r[0] != '0'
    ensures ParseDecimal(r) == n
  {
    if n < 10 then [Digit(n)]
    else
      var prefix := NatToString(n / 10);
      var r := prefix + [Digit(n % 10)];
      assert r[..|r| - 1] == prefix;
      r
  }

  /** Different numbers print differently, so a row number in a log line or
      a cell address identifies the row. */
  lemma NatToStringInjective(m: nat, n: nat)
    requires NatToString(m) == NatToString(n)
    ensures m == n
  {
  }
}

=== FILE: tracker.dfy ===
/** The whole pass `process_unfilled_rows` (flask_app.py:129-203): read the
    snapshot, map the header, run the row loop, and return the collected
    progress lines with a summary, the "no data" message, or the error that
    ended the run. */
module Tracker {
  import opened Wrappers
  import opened Text
  import opened Extraction
  import opened Sheet
  import opened Sync
  import opened Orchestrator

  /** How a run ends. `NoData` returns before any row is looked at;
      `Finished` and `Aborted` carry every effect issued before the
      return, in order. */
  datatype Outcome =
    | NoData
    | Finished(trace: seq<Event>, processed: nat)
    | Aborted(trace: seq<Event>, error: string)

  /** The closing line (flask_app.py:195-198). */
  function Summary(processed: nat): LogEntry {
    if processed == 0 then AllProcessed else ProcessedJobs(processed)
  }

  /** The name-to-index map of a non-empty snapshot's header row. */
  function Columns(data: Table): (cols: map<string, nat>)
    requires |data| > 0 && FitsReadRange(data)
    ensures ValidColumns(cols)
  {
    HeaderIndexIsValid(data[0]);
    HeaderIndex(data[0])
  }

  /** One run over the sheet as read (`sheet` is the failure of client
      setup or of the read itself, or the rows of `A:Z`), with `extract`
      standing for `extract_job_info` including its fence stripping and
      decoding. */
  function Run(sheet: Result<Table, string>, extract: string -> Option<Decoded>): (o: Outcome)
    requires sheet.Success? ==> FitsReadRange(sheet.value)
    ensures o.NoData? <==> sheet.Success? && |sheet.value| == 0
    ensures !o.NoData? ==> |o.trace| > 0 && o.trace[0] == Log(Starting)
    ensures sheet.Failure? ==> o == Aborted([Log(Starting)], sheet.error)
    ensures o.Finished? ==> o.trace[|o.trace| - 1] == Log(Summary(o.processed))
  {
    match sheet
    case Failure(e) => Aborted([Log(Starting)], e)
    case Success(data) =>
      if |data| == 0 then NoData
      else
        var p := Loop(Columns(data), data, extract, 1);
        if p.crash.Some? then Aborted([Log(Starting)] + p.events, p.crash.value)
        else Finished([Log(Starting)] + p.events + [Log(Summary(p.processed))], p.processed)
  }

  /** The progress lines of `events`, joined (`''.join(results)`). */
  function Transcript(events: seq<Event>): string {
    if events == [] then ""
    else (if events[0].Log? then Render(events[0].entry) else "") + Transcript(events[1..])
  }

  lemma {:induction false} TranscriptConcat(a: seq<Event>, b: seq<Event>)
    ensures Transcript(a + b) == Transcript(a) + Transcript(b)
  {
    if a == [] {
      assert a + b == b;
    } else {
      assert (a + b)[1..] == a[1..] + b;
      TranscriptConcat(a[1..], b);
    }
  }

  /** The string the pass returns to the web page; a finished run's text
      opens with its first progress line. */
  function Message(o: Outcome): (r: string)
    ensures o.Finished? && |o.trace| > 0 && o.trace[0].Log? ==> StartsWith(r, Render(o.trace[0].entry))
  {
    match o
    case NoData => " No data found in sheet"
    case Aborted(_, e) => " Error: " + e
    case Finished(trace, _) => Transcript(trace)
  }
}

=== FILE: wrappers.dfy ===
/** Failure-carrying wrappers used across the model. */
module Wrappers {

  /** A value that may be absent (Python's `None`). */
  datatype Option<+T> = None | Some(value: T)

  /** Either a value or an error (an exception that escaped a call). */
  datatype Result<+R, +E> = Success(value: R) | Failure(error: E)
}
